=== FILE: README.md ===
# Paging tag helper — a Dafny model

This project models the pagination engine of the MMS paging tag helper
(`PagingTagHelper` in `MMS.Core/TagHelpers/PageControls/PagingTagHelper.cs`).
The helper is an ASP.NET Core tag helper. From a handful of attributes and
configuration entries, it renders a Bootstrap pagination bar: first/previous
buttons, a window of numbered page links with optional "1 …" and "… N"
shortcuts, next/last buttons, page and record counters, and a page-size
drop-down. Every link's `href` is the current query string with the page
number and page size rewritten.

The model replaces the HTML with an abstract list of items, and proves what
the markup encodes:

- which links appear, in which order, and with which targets;
- where the ellipses go;
- which link is disabled;
- what query string each enabled link points at.

Modules, one per concern of the source:

- `Wrappers`: `Option`.
- `Text`: the .NET string primitives the code relies on, with their semantics
  written out:
  - `TrimStart(char)` removes every leading copy of the character;
  - `Split(char)` keeps empty pieces;
  - `string.Join`;
  - `StartsWith` is an ordinal prefix test;
  - integers are rendered in decimal.
- `QueryString`: `CreateUrlTemplate`, the query-string rewrite.
- `Boundaries`: `TotalPages` and `CalculateBoundaries`, the window of
  numbered links.
- `Defaults`: `SetDefaults`. Each setting comes from the tag attribute, else
  the configuration entry `MMS:Paging:<profile>:<name>`, else a hard-coded
  fallback.
- `PagingControl`: `Process`, `CreatePagingLink` and `CreatePageSizeControl`.

Modelling choices:

- Integers are unbounded.
- The configuration is a map from key to raw string.
- `int.TryParse` and `bool.TryParse` are passed in as functions, so every
  property holds for any parser.
- A link is `Link(target, kind, href)`. Its `href` is either absent (the
  disabled link) or a `PageRef` holding the arguments of `CreateUrlTemplate`.
  `PageRef.Url()` renders it.

Where the code and its documentation disagree, the model follows the code:

- An empty query string yields `?&p=1&s=10`, not `?p=1&s=10`. Splitting `""`
  gives one empty token, which is kept, so the result has a leading `&`.
- Duplicate page parameters are each rewritten in place and kept, not merged:
  `p=1&p=2` becomes `?p=3&p=3&s=10`.
- The hard-coded fallbacks in `SetDefaults` differ from the defaults the
  property doc comments give:

  | setting | code | doc comment |
  |---|---|---|
  | page size | 10 | 25 |
  | gap size | 3 | 5 |
  | page-size block | 10 | 25 |
  | page-size items | 3 | 5 |
- When there are more pages than the maximum, the end and middle branches
  give a window one page wider than the maximum:
  - page 98 of 100 with a maximum of 10 shows pages 90–100;
  - page 25 shows pages 20–30.
  The branch comments illustrate ten pages. The middle window never runs
  past the last page: the middle branch is taken only when
  `PageNo + MaxDisplayedPages <= TotalPages`.
- `ShowFirstLast` is switched on whenever the pages do not all fit, even when
  it was set to false explicitly.

## Model

| member | source | states |
|---|---|---|
| `Text.JoinSplit` | MMS.Core/TagHelpers/PageControls/PagingTagHelper.cs:632 | joining the pieces of `Split(s, sep)` with `sep` gives back `s`, so the tokenisation loses nothing |
| `Text.SplitJoin` | MMS.Core/TagHelpers/PageControls/PagingTagHelper.cs:648 | splitting the join of separator-free tokens gives back exactly those tokens |
| `Text.TrimStart` | MMS.Core/TagHelpers/PageControls/PagingTagHelper.cs:632 | the result is a suffix of the input that does not start with the trimmed character, and everything removed was that character |
| `Text.Split` | MMS.Core/TagHelpers/PageControls/PagingTagHelper.cs:632 | at least one piece, none containing the separator, the first a prefix of the input |
| `Text.IntToStringRoundTrip` | MMS.Core/TagHelpers/PageControls/PagingTagHelper.cs:629-630 | reading back the decimal rendering of a page number or size gives the number |
| `Text.IntToStringInjective` | MMS.Core/TagHelpers/PageControls/PagingTagHelper.cs:629-630 | different numbers render to different parameter values |
| `QueryString.RewriteTokens` | MMS.Core/TagHelpers/PageControls/PagingTagHelper.cs:634-640 | the loop keeps the number of tokens and rewrites each position on its own: a token starting with `pageKey=` becomes `p`, else one starting with `sizeKey=` becomes `s`, else it stays |
| `QueryString.Param` | MMS.Core/TagHelpers/PageControls/PagingTagHelper.cs:629-630 | the generated `key=value` token starts with `key=`, so the rewrite recognises it as that key's parameter |
| `QueryString.Tokenize` | MMS.Core/TagHelpers/PageControls/PagingTagHelper.cs:632 | the query string yields at least one token, and no token contains `&` |
| `QueryString.AppendMissing` | MMS.Core/TagHelpers/PageControls/PagingTagHelper.cs:642-646 | the token is in the result; it is appended, once and at the end, exactly when it was not already present; the existing tokens are unchanged |
| `QueryString.UrlTokens` | MMS.Core/TagHelpers/PageControls/PagingTagHelper.cs:629-647 | the output contains both `p` and `s`; every original token keeps its position; non-paging tokens are unchanged; at most two tokens are appended, and only paging parameters; no token other than `p`/`s` mentions either key |
| `QueryString.UrlTokensAppendMissing` | MMS.Core/TagHelpers/PageControls/PagingTagHelper.cs:642-646 | with distinct keys, `p` (then `s`) is appended exactly when no original token carried that key, and `p` comes first when appended |
| `QueryString.CreateUrlTemplate` | MMS.Core/TagHelpers/PageControls/PagingTagHelper.cs:648 | the href always starts with `?` |
| `QueryString.PrefixesExclusive` | MMS.Core/TagHelpers/PageControls/PagingTagHelper.cs:637-638 | with `=`-free keys, a token can start with both `pageKey=` and `sizeKey=` only when the keys are equal, so the order of the two tests matters only for a shared key |
| `QueryString.UrlTemplateReadsBack` | MMS.Core/TagHelpers/PageControls/PagingTagHelper.cs:626-649 | tokenising a generated href gives back exactly the tokens that were joined |
| `QueryString.UrlTemplateIdempotent` | MMS.Core/TagHelpers/PageControls/PagingTagHelper.cs:626-649 | with two distinct `=`/`&`-free keys, feeding a generated href back in with the same page and size returns it unchanged |
| `QueryString.SharedKeyNotIdempotent` | MMS.Core/TagHelpers/PageControls/PagingTagHelper.cs:637-646 | when both keys are `k` the rewrite is not idempotent, so the distinct-keys condition is needed |
| `QueryString.UrlTemplateExampleInPlace` | MMS.Core/TagHelpers/PageControls/PagingTagHelper.cs:626-649 | `a=1&p=1&b=2` with page 3 and size 25 becomes `?a=1&p=3&b=2&s=25`: the page parameter is rewritten in place, the size appended |
| `QueryString.UrlTemplateExampleEmpty` | MMS.Core/TagHelpers/PageControls/PagingTagHelper.cs:632-648 | an empty query string yields `?&p=1&s=10` (the empty token is kept) |
| `QueryString.DuplicatesKept` | MMS.Core/TagHelpers/PageControls/PagingTagHelper.cs:634-643 | `p=1&p=2` with page 3 becomes `?p=3&p=3&s=10`: duplicates are rewritten, not merged |
| `Boundaries.CeilDiv` | MMS.Core/TagHelpers/PageControls/PagingTagHelper.cs:538 | the result is the ceiling of the quotient: `b*(q-1) < a <= b*q` |
| `Boundaries.TotalPages` | MMS.Core/TagHelpers/PageControls/PagingTagHelper.cs:302 | the page count is the ceiling of records over page size for either sign of the size, and is positive exactly when records and size have the same strict sign |
| `Boundaries.TotalPagesPositiveSize` | MMS.Core/TagHelpers/PageControls/PagingTagHelper.cs:302 | with a positive page size there are pages iff there are records, zero records give zero pages, and one page iff `1 <= records <= pageSize` |
| `Boundaries.CalculateBoundaries` | MMS.Core/TagHelpers/PageControls/PagingTagHelper.cs:535-562 | the window starts at page 1 or later and never passes the last page; with at least one page and a positive maximum, it lies within `[1, TotalPages]` and contains the current page whenever that page exists; its width per branch is the clamped maximum `m'` at the start, `T` or `m'+1` at the end, and `m+1` in the middle, where it holds `⌈m/2⌉` pages before the current page (fewer only when that would pass page 1, as for page 1 with `m = 1`) and, for `m >= 2`, `⌊m/2⌋` after it |
| `Boundaries.WindowMonotone` | MMS.Core/TagHelpers/PageControls/PagingTagHelper.cs:535-562 | moving to the next page never moves either end of the window backwards |
| `Boundaries.WindowExamples` | MMS.Core/TagHelpers/PageControls/PagingTagHelper.cs:543-559 | one case per branch: (1,10,5) gives 1–5, (10,10,5) gives 5–10, (5,20,5) gives 2–7 |
| `Boundaries.WindowOneWider` | MMS.Core/TagHelpers/PageControls/PagingTagHelper.cs:540-559 | with more pages than the maximum, page 98 of 100 (maximum 10) shows 90–100 and page 25 shows 20–30, one page more than the branch comments show; when all pages fit, page 10 of 10 shows exactly 1–10 |
| `Defaults.ResolveInt` | MMS.Core/TagHelpers/PageControls/PagingTagHelper.cs:429-450 | an integer setting is the tag value when above the threshold, else a configured value that parses, else the fallback |
| `Defaults.ResolveString` | MMS.Core/TagHelpers/PageControls/PagingTagHelper.cs:444-458 | a string setting is the tag value when set (an empty string counts as set), else the configured string, else the fallback |
| `Defaults.ResolveBool` | MMS.Core/TagHelpers/PageControls/PagingTagHelper.cs:460-473 | a flag is the tag value when set, else a configured value that parses, else false |
| `Defaults.SetDefaults` | MMS.Core/TagHelpers/PageControls/PagingTagHelper.cs:424-473 | each integer setting is the tag value when above its threshold (1 for the page number, 0 otherwise), else a parseable configured value, else the fallback (1, 10, 0, 10, 3, 10, 3); the keys and query string are the tag value, else the configured string, else `p`, `s`, empty; each flag is the tag value if set, else a parseable configured flag, else false; all configuration keys use the profile `SettingsJson ?? "default"` |
| `Defaults.BareTagFallbacks` | MMS.Core/TagHelpers/PageControls/PagingTagHelper.cs:424-473 | a tag with nothing set and an empty configuration resolves to page 1, size 10, no records, maximum 10, gap 3, block 10, 3 items, keys `p`/`s`, empty query, every flag off |
| `Defaults.ExplicitFirstPageReplaced` | MMS.Core/TagHelpers/PageControls/PagingTagHelper.cs:429-433 | an explicit page number 1 yields to a parseable configured page number, while an explicit page size 1 is kept |
| `PagingControl.CreatePagingLink` | MMS.Core/TagHelpers/PageControls/PagingTagHelper.cs:564-588 | a link to the current page has no href; any other link's href is the query rewritten to that target with the current page size |
| `PagingControl.ShowsFirstLast` | MMS.Core/TagHelpers/PageControls/PagingTagHelper.cs:321-327 | none: a plain condition, on when asked for or when the pages exceed the maximum |
| `PagingControl.PrevPage` | MMS.Core/TagHelpers/PageControls/PagingTagHelper.cs:333 | the previous button's target is never below page 1: `PageNo-1` from page 2 on, else 1 |
| `PagingControl.NextPage` | MMS.Core/TagHelpers/PageControls/PagingTagHelper.cs:371 | the next button's target never passes the last page: `PageNo+1` before the last page, else the last page |
| `PagingControl.LeadingGap` | MMS.Core/TagHelpers/PageControls/PagingTagHelper.cs:340-343 | none: a plain condition, the four tests guarding the "1 …" block |
| `PagingControl.TrailingGap` | MMS.Core/TagHelpers/PageControls/PagingTagHelper.cs:358-360 | none: a plain condition, the three tests guarding the "… N" block |
| `PagingControl.NumberedBlock` | MMS.Core/TagHelpers/PageControls/PagingTagHelper.cs:340-368 | the block holds two items for "1 …" when shown, one per page of the window, and two for "… N" when shown; every item is a numbered link or an ellipsis |
| `PagingControl.LinkList` | MMS.Core/TagHelpers/PageControls/PagingTagHelper.cs:321-380 | for any page count and window, the list holds the numbered block plus one item each for first, previous, next and last when shown |
| `PagingControl.Links` | MMS.Core/TagHelpers/PageControls/PagingTagHelper.cs:321-380 | none of its own: the list for the computed page count and window; the lemmas below state its layout |
| `PagingControl.NumberedLinks` | MMS.Core/TagHelpers/PageControls/PagingTagHelper.cs:352-355 | one numbered link per page of the window, in ascending order |
| `PagingControl.Paginate` | MMS.Core/TagHelpers/PageControls/PagingTagHelper.cs:317-415 | a control is produced exactly when there is at least one page, i.e. for a positive page size exactly when there are records; the total-pages counter is shown exactly when asked for and shows the page count; the total-records counter likewise; the page-size list appears exactly when asked for, and then offers `max(0, maxItems)` options, option `k` worth `(k+1) * blockSize` and selected exactly when it equals the page size; the links are laid out as `LinksLayout` describes for the computed page count and window, and every link obeys the current-page rule |
| `PagingControl.Process` | MMS.Core/TagHelpers/PageControls/PagingTagHelper.cs:314-416 | after resolving defaults, the control renders exactly when the page count is positive; positive record count and page size on the tag always render; a tag without records, profile or configuration renders nothing; a rendered control's links are laid out for the resolved settings, and each is disabled exactly on the current page and otherwise points at the rewritten query |
| `PagingControl.LinksOrdered` | MMS.Core/TagHelpers/PageControls/PagingTagHelper.cs:327-381 | links come in the order first, previous, the numbered block with its ellipses, next, last |
| `PagingControl.LinksDisabledRule` | MMS.Core/TagHelpers/PageControls/PagingTagHelper.cs:570-584 | every link in the list is disabled exactly when its target is the current page, and otherwise points at the rewritten query for its target |
| `PagingControl.LinkListRule` | MMS.Core/TagHelpers/PageControls/PagingTagHelper.cs:570-584 | for any page count and window, every link is disabled exactly when it targets the current page, and otherwise points at the rewritten query for its target |
| `PagingControl.LinksJumpButtons` | MMS.Core/TagHelpers/PageControls/PagingTagHelper.cs:322-380 | first and last buttons appear exactly when `ShowFirstLast` is on or the pages exceed the maximum, previous and next exactly when `ShowPrevNext` is on; first opens the list and targets page 1, last closes it and targets the last page |
| `PagingControl.LinksEllipses` | MMS.Core/TagHelpers/PageControls/PagingTagHelper.cs:339-368 | the list contains one ellipsis for the "1 …" block and one for the "… N" block, each exactly when its condition holds, and no other |
| `PagingControl.LinksCurrentPage` | MMS.Core/TagHelpers/PageControls/PagingTagHelper.cs:352-355 | when the current page exists and the maximum is positive, it appears as a disabled numbered link and every link targets an existing page |
| `PagingControl.JumpTargets` | MMS.Core/TagHelpers/PageControls/PagingTagHelper.cs:327-376 | every previous link in the rendered list targets `max(1, PageNo-1)` and is disabled iff on page 1; every next link targets `min(TotalPages, PageNo+1)` and is disabled iff on the last page; every first link targets page 1 and every last link the last page, disabled on those pages |
| `PagingControl.LinksLayout` | MMS.Core/TagHelpers/PageControls/PagingTagHelper.cs:321-376 | the rendered list index by index: its length counts first, previous, "1 …", the window, "… N", next and last, each when shown; the window's links ascend from its start; the link to page 1 and an ellipsis sit directly before the window, and an ellipsis and the numbered link to the last page directly after it; previous follows first, next follows the numbered block, first opens and last closes the list |
| `PagingControl.LinksExampleSmall` | MMS.Core/TagHelpers/PageControls/PagingTagHelper.cs:314-381 | 30 records, 10 per page, page 2, previous/next on: previous 1, pages 1–3 with 2 disabled, next 3 |
| `PagingControl.LinksExampleForcedJumps` | MMS.Core/TagHelpers/PageControls/PagingTagHelper.cs:322-381 | 100 records, 10 per page, page 5, maximum 5: first/last forced on, window 2–7, then "… 10", then last |
| `PagingControl.CreatePageSizeControl` | MMS.Core/TagHelpers/PageControls/PagingTagHelper.cs:591-605 | `max(0, maxItems)` options; option `k` is worth `(k+1) * blockSize` and is selected exactly when it equals the page size |
| `PagingControl.SizeOptionsFrom` | MMS.Core/TagHelpers/PageControls/PagingTagHelper.cs:597-605 | option `k` has value `(from+k) * blockSize` and is selected exactly when that equals the page size |
| `PagingControl.PageSizeOptionsIncreasing` | MMS.Core/TagHelpers/PageControls/PagingTagHelper.cs:597-605 | with a positive block size, there are `max(0, maxItems)` options, strictly increasing, between `blockSize` and `maxItems * blockSize` |
| `PagingControl.PageSizeSelection` | MMS.Core/TagHelpers/PageControls/PagingTagHelper.cs:601-602 | with a positive block size, some option is selected exactly when the page size is one of the offered multiples, and at most one option is selected |

## Left out

- HTML, CSS classes, the button texts and screen-reader texts, the
  `N0` number formatting of the counters, and the form around the page-size
  drop-down: they are presentation. Their settings (`Text*`, `SrText*`,
  `Class*`, `PageSizeNavFormMethod`, `PageSizeNavOnChange`) are resolved in
  `SetDefaults` by the same `??` chain as the modelled string settings, but
  they are not modelled.
- Logging through `ILogger`: it has no effect on the output.
- `Boundaries.TotalPages`: a page size of 0 is excluded. The source divides
  by zero in floating point and casts infinity or NaN to `int`, a result the
  language leaves unspecified. `Links`, `Paginate` and `Process` inherit this
  precondition.
- 32-bit overflow is not modelled: integers are unbounded. This affects
  `TotalRecords / (double)PageSize` near `int.MaxValue`, `PageNo + 1`,
  `currentPageNo + maxDisplayedPages` and `i * PageSizeNavBlockSize`.
- Floating-point rounding in `Math.Ceiling` is not modelled. The model uses
  exact ceiling division, which agrees with the double computation for
  32-bit operands.
- Configuration key lookup in .NET is case-insensitive; the model's map is
  case-sensitive.
- `int.TryParse` and `bool.TryParse` are opaque parameters. Their accepted
  formats (whitespace, signs, `True`/`false`) are not modelled.
- `StartsWith(string)` in .NET is culture-sensitive. The model uses an
  ordinal prefix test. The two agree when both keys and tokens are ASCII. A
  culture-sensitive comparison also skips zero-weight characters such as a
  soft hyphen, so `p\u00AD=1` starts with `p=` there but not in the model.
- `Text.IntToString` always writes a negative number with an ASCII `-`.
  `$"{pageNo}"` uses the current culture's negative sign, which is U+2212 in
  some cultures. A negative page number is reachable from the configuration
  (a configured page number of -5 with previous/next shown gives a next
  target of -4), so under such a culture the model's href differs from the
  rendered one in that one character.
- Mutating `ShowFirstLast` on the tag instance when pages exceed the maximum
  is modelled as a local decision (`ShowsFirstLast`), not as a state change.
- The rest of the repository (language navigation, alerts, localisation,
  data annotations, e-mail and phone helpers, enum models) is not part of
  this model.

=== FILE: boundaries.dfy ===
/**
 * Page arithmetic of the paging control: the number of pages
 * (`PagingTagHelper.TotalPages`) and the window of numbered page links
 * around the current page (`PagingTagHelper.CalculateBoundaries`).
 */
module Boundaries {

  /**
   * Ceiling of `a / b` for a positive divisor; exact for every integer `a`,
   * which is what `(int)Math.Ceiling(a / (double)b)` computes on 32-bit inputs.
   */
  function CeilDiv(a: int, b: int): (q: int)
    requires b >= 1
    ensures b * (q - 1) < a <= b * q
  {
    var x := a + b - 1;
    assert x == b * (x / b) + x % b && 0 <= x % b < b;
    x / b
  }

  /**
   * Number of pages needed for `totalRecords` records at `pageSize` per page:
   * the ceiling of the quotient, for either sign of the divisor (a zero page
   * size divides by zero in floating point and is excluded).
   */
  function TotalPages(totalRecords: int, pageSize: int): (r: int)
    requires pageSize != 0
    ensures pageSize >= 1 ==> pageSize * (r - 1) < totalRecords <= pageSize * r
    ensures pageSize <= -1 ==> -pageSize * (r - 1) < -totalRecords <= -pageSize * r
    ensures r > 0 <==> (pageSize > 0 && totalRecords > 0) || (pageSize < 0 && totalRecords < 0)
  {
    var a := if pageSize > 0 then totalRecords else -totalRecords;
    var b := if pageSize > 0 then pageSize else -pageSize;
    var r := CeilDiv(a, b);
    ProductSign(b, r);
    ProductSign(b, r - 1);
    r
  }

  /** With a positive page size there are pages exactly when there are records, and none for zero records. */
  lemma TotalPagesPositiveSize(totalRecords: int, pageSize: int)
    requires pageSize >= 1
    ensures TotalPages(totalRecords, pageSize) > 0 <==> totalRecords > 0
    ensures totalRecords == 0 ==> TotalPages(totalRecords, pageSize) == 0
    ensures TotalPages(totalRecords, pageSize) == 1 <==> 1 <= totalRecords <= pageSize
  {
    var r := TotalPages(totalRecords, pageSize);
    ProductSign(pageSize, r);
    ProductBelow(pageSize, r - 1);
  }

  /** A multiple of `b` below `b` is a non-positive multiple. */
  lemma ProductBelow(b: int, x: int)
    requires b >= 1
    ensures b * x < b ==> x <= 0
  {
  }

  /** A product with a positive factor has the sign of the other factor. */
  lemma ProductSign(b: int, x: int)
    requires b >= 1
    ensures b * x >= 0 <==> x >= 0
    ensures b * x > 0 <==> x > 0
  {
  }

  /** Inclusive range of page numbers shown as numbered links. */
  datatype Window = Window(start: int, end: int) {

    /** Number of numbered links the window produces. */
    function Width(): int {
      if start <= end then end - start + 1 else 0
    }

    predicate Contains(page: int) {
      start <= page <= end
    }
  }

  function Min(a: int, b: int): int {
    if a <= b then a else b
  }

  /**
   * The three-branch window. `maxDisplayedPages` is clamped to `totalPages`
   * locally, but the half-width `gap` is taken from the unclamped value.
   * Near the start the window is `[1, m]`; near the end it reaches back `m`
   * pages from the last page; in between it starts `gap` pages before the
   * current page and spans `m + 1` pages.
   */
  function CalculateBoundaries(currentPageNo: int, totalPages: int, maxDisplayedPages: int): (w: Window)
    // every branch starts at page 1 or later, and never runs past the last page
    ensures w.start >= 1
    ensures totalPages >= 1 && w.start <= w.end ==> w.end <= totalPages
    ensures totalPages >= 1 && maxDisplayedPages >= 1 ==> 1 <= w.start <= w.end <= totalPages
    // the current page, when it exists, is inside the window
    ensures totalPages >= 1 && maxDisplayedPages >= 1 && 1 <= currentPageNo <= totalPages ==> w.Contains(currentPageNo)
    // widths of the three branches, with m' the clamped maximum
    ensures totalPages >= 1 && maxDisplayedPages >= 1 ==>
      var m' := Min(maxDisplayedPages, totalPages);
      && (currentPageNo < m' ==> w == Window(1, m'))
      && (currentPageNo >= m' && currentPageNo + m' > totalPages ==>
            w.end == totalPages && w.Width() == (if totalPages == m' then totalPages else m' + 1))
      && (currentPageNo >= m' && currentPageNo + m' <= totalPages ==>
            currentPageNo >= maxDisplayedPages && currentPageNo + maxDisplayedPages <= totalPages &&
            w.Width() == maxDisplayedPages + 1 &&
            // ⌈m/2⌉ pages before the current page (fewer only when page 1 is
            // reached), hence ⌊m/2⌋ after it once the maximum is at least 2
            currentPageNo - w.start == Min(CeilDiv(maxDisplayedPages, 2), currentPageNo - 1) &&
            (maxDisplayedPages >= 2 ==>
               currentPageNo - w.start == CeilDiv(maxDisplayedPages, 2) &&
               w.end - currentPageNo == maxDisplayedPages / 2))
  {
    var gap := CeilDiv(maxDisplayedPages, 2);
    var m := if maxDisplayedPages > totalPages then totalPages else maxDisplayedPages;
    if currentPageNo < m then
      Window(1, m)
    else if currentPageNo + m > totalPages then
      Window(if totalPages - m > 0 then totalPages - m else 1, totalPages)
    else
      var start := if currentPageNo - gap > 0 then currentPageNo - gap else 1;
      Window(start, start + m)
  }

  /** Moving the current page forward never moves the window backward. */
  lemma WindowMonotone(currentPageNo: int, totalPages: int, maxDisplayedPages: int)
    requires totalPages >= 1 && maxDisplayedPages >= 1
    ensures var w := CalculateBoundaries(currentPageNo, totalPages, maxDisplayedPages);
      var w' := CalculateBoundaries(currentPageNo + 1, totalPages, maxDisplayedPages);
      w.start <= w'.start && w.end <= w'.end
  {
  }

  /** The worked cases of the three branches (start, end and middle). */
  lemma WindowExamples()
    ensures CalculateBoundaries(1, 10, 5) == Window(1, 5)
    ensures CalculateBoundaries(10, 10, 5) == Window(5, 10)
    ensures CalculateBoundaries(5, 20, 5) == Window(2, 7)
  {
  }

  /**
   * When there are more pages than the maximum, the window near the end and
   * in the middle holds one page more than the maximum: with 100 pages of
   * which at most 10 are shown, page 98 shows pages 90 to 100 and page 25
   * shows pages 20 to 30. When all pages fit, the end branch shows exactly
   * all of them: page 10 of 10 shows pages 1 to 10.
   */
  lemma WindowOneWider()
    ensures CalculateBoundaries(98, 100, 10) == Window(90, 100)
    ensures CalculateBoundaries(25, 100, 10) == Window(20, 30)
    ensures CalculateBoundaries(10, 10, 10) == Window(1, 10)
  {
  }
}

=== FILE: defaults.dfy ===
/**
 * Three-tier settings resolution (`PagingTagHelper.SetDefaults`): a value set
 * on the tag wins, otherwise the value configured under
 * `MMS:Paging:<profile>:<name>`, otherwise a hard-coded fallback.
 *
 * The configuration is a map of raw strings. `int.TryParse` and
 * `bool.TryParse` are passed in as opaque parsers; a missing key parses to
 * nothing, as a null string does.
 */
module Defaults {
  import opened Wrappers

  type Config = map<string, string>

  const DefaultProfile := "default"

  /** Hard-coded fallbacks; these, not the property doc comments, govern. */
  const FallbackPageNo := 1
  const FallbackPageSize := 10
  const FallbackTotalRecords := 0
  const FallbackMaxDisplayedPages := 10
  const FallbackGapSize := 3
  const FallbackBlockSize := 10
  const FallbackMaxItems := 3
  const FallbackPageKey := "p"
  const FallbackSizeKey := "s"
  const FallbackQuery := ""

  function ConfigKey(profile: string, name: string): string {
    "MMS:Paging:" + profile + ":" + name
  }

  function Lookup(cfg: Config, profile: string, name: string): Option<string> {
    var key := ConfigKey(profile, name);
    if key in cfg then Some(cfg[key]) else None
  }

  /**
   * An integer setting: the tag value if it is above `keepAbove` (0 for most
   * settings, 1 for the page number), else a parseable configured value, else
   * `fallback`.
   */
  function ResolveInt(explicit: int, keepAbove: int, raw: Option<string>,
                      parseInt: string -> Option<int>, fallback: int): (r: int)
    ensures Tiered(r, explicit, keepAbove, raw, parseInt, fallback)
  {
    if explicit > keepAbove then explicit
    else if raw.Some? && parseInt(raw.value).Some? then parseInt(raw.value).value
    else fallback
  }

  /**
   * `v` was resolved from `explicit` (kept when above `keepAbove`), the raw
   * configured value (kept when it parses) and `fallback`, in that order.
   */
  predicate Tiered(v: int, explicit: int, keepAbove: int, raw: Option<string>,
                   parseInt: string -> Option<int>, fallback: int)
  {
    && (explicit > keepAbove ==> v == explicit)
    && (explicit <= keepAbove && raw.Some? && parseInt(raw.value).Some? ==> v == parseInt(raw.value).value)
    && (explicit <= keepAbove && (raw.None? || parseInt(raw.value).None?) ==> v == fallback)
  }

  /**
   * `v` was resolved from the nullable `explicit` (kept when set), the raw
   * configured value (kept when it parses) and false, in that order.
   */
  predicate FlagTiered(v: bool, explicit: Option<bool>, raw: Option<string>, parseBool: string -> Option<bool>) {
    && (explicit.Some? ==> v == explicit.value)
    && (explicit.None? && raw.Some? && parseBool(raw.value).Some? ==> v == parseBool(raw.value).value)
    && (explicit.None? && (raw.None? || parseBool(raw.value).None?) ==> !v)
  }

  /** A nullable boolean setting: the tag value if set, else a parseable configured value, else false. */
  function ResolveBool(explicit: Option<bool>, raw: Option<string>, parseBool: string -> Option<bool>): (r: bool)
    ensures FlagTiered(r, explicit, raw, parseBool)
  {
    if explicit.Some? then explicit.value
    else if raw.Some? && parseBool(raw.value).Some? then parseBool(raw.value).value
    else false
  }

  /** A string setting: `explicit ?? configured ?? fallback`; an empty string is a value. */
  function ResolveString(explicit: Option<string>, raw: Option<string>, fallback: string): (r: string)
    ensures explicit.Some? ==> r == explicit.value
    ensures explicit.None? && raw.Some? ==> r == raw.value
    ensures explicit.None? && raw.None? ==> r == fallback
  {
    explicit.Coalesce(raw.Coalesce(fallback))
  }

  /**
   * The tag's own attributes. Integer attributes left unset read as 0, as an
   * unassigned `int` property does; nullable ones are `None`.
   */
  datatype Attributes = Attributes(
    settingsJson: Option<string>,
    pageNo: int,
    pageSize: int,
    totalRecords: int,
    maxDisplayedPages: int,
    gapSize: int,
    pageSizeNavBlockSize: int,
    pageSizeNavMaxItems: int,
    queryStringKeyPageNo: Option<string>,
    queryStringKeyPageSize: Option<string>,
    queryStringValue: Option<string>,
    showFirstLast: Option<bool>,
    showPrevNext: Option<bool>,
    showPageSizeNav: Option<bool>,
    showTotalPages: Option<bool>,
    showTotalRecords: Option<bool>,
    showFirstNumberedPage: Option<bool>,
    showLastNumberedPage: Option<bool>)

  /** The settings the paging logic reads once defaults are applied. */
  datatype Settings = Settings(
    pageNo: int,
    pageSize: int,
    totalRecords: int,
    maxDisplayedPages: int,
    gapSize: int,
    pageSizeNavBlockSize: int,
    pageSizeNavMaxItems: int,
    pageKey: string,
    sizeKey: string,
    query: string,
    showFirstLast: bool,
    showPrevNext: bool,
    showPageSizeNav: bool,
    showTotalPages: bool,
    showTotalRecords: bool,
    showFirstNumberedPage: bool,
    showLastNumberedPage: bool)

  /** The attribute set of a tag on which nothing was written. */
  const Unset := Attributes(None, 0, 0, 0, 0, 0, 0, 0, None, None, None, None, None, None, None, None, None, None)

  function SetDefaults(a: Attributes, cfg: Config,
                       parseInt: string -> Option<int>, parseBool: string -> Option<bool>): (st: Settings)
    ensures var profile := a.settingsJson.Coalesce(DefaultProfile);
      && Tiered(st.pageNo, a.pageNo, 1, Lookup(cfg, profile, "page-no"), parseInt, 1)
      && Tiered(st.pageSize, a.pageSize, 0, Lookup(cfg, profile, "page-size"), parseInt, 10)
      && Tiered(st.totalRecords, a.totalRecords, 0, Lookup(cfg, profile, "total-records"), parseInt, 0)
      && Tiered(st.maxDisplayedPages, a.maxDisplayedPages, 0, Lookup(cfg, profile, "max-displayed-pages"), parseInt, 10)
      && Tiered(st.gapSize, a.gapSize, 0, Lookup(cfg, profile, "gap-size"), parseInt, 3)
      && Tiered(st.pageSizeNavBlockSize, a.pageSizeNavBlockSize, 0, Lookup(cfg, profile, "page-size-nav-block-size"), parseInt, 10)
      && Tiered(st.pageSizeNavMaxItems, a.pageSizeNavMaxItems, 0, Lookup(cfg, profile, "page-size-nav-max-items"), parseInt, 3)
    // strings: tag value, else configured string (even empty), else fallback
    ensures var profile := a.settingsJson.Coalesce(DefaultProfile);
      var raw := Lookup(cfg, profile, "query-string-key-page-no");
      st.pageKey == (if a.queryStringKeyPageNo.Some? then a.queryStringKeyPageNo.value
                     else if raw.Some? then raw.value else "p")
    ensures var profile := a.settingsJson.Coalesce(DefaultProfile);
      var raw := Lookup(cfg, profile, "query-string-key-page-size");
      st.sizeKey == (if a.queryStringKeyPageSize.Some? then a.queryStringKeyPageSize.value
                     else if raw.Some? then raw.value else "s")
    ensures var profile := a.settingsJson.Coalesce(DefaultProfile);
      var raw := Lookup(cfg, profile, "query-string-value");
      st.query == (if a.queryStringValue.Some? then a.queryStringValue.value
                   else if raw.Some? then raw.value else "")
    // flags: tag value, else parseable configured flag, else false
    ensures var profile := a.settingsJson.Coalesce(DefaultProfile);
      && FlagTiered(st.showFirstLast, a.showFirstLast, Lookup(cfg, profile, "show-first-last"), parseBool)
      && FlagTiered(st.showPrevNext, a.showPrevNext, Lookup(cfg, profile, "show-prev-next"), parseBool)
      && FlagTiered(st.showPageSizeNav, a.showPageSizeNav, Lookup(cfg, profile, "show-page-size-nav"), parseBool)
      && FlagTiered(st.showTotalPages, a.showTotalPages, Lookup(cfg, profile, "show-total-pages"), parseBool)
      && FlagTiered(st.showTotalRecords, a.showTotalRecords, Lookup(cfg, profile, "show-total-records"), parseBool)
      && FlagTiered(st.showFirstNumberedPage, a.showFirstNumberedPage, Lookup(cfg, profile, "show-first-numbered-page"), parseBool)
      && FlagTiered(st.showLastNumberedPage, a.showLastNumberedPage, Lookup(cfg, profile, "show-last-numbered-page"), parseBool)
  {
    var profile := a.settingsJson.Coalesce(DefaultProfile);
    Settings(
      pageNo := ResolveInt(a.pageNo, 1, Lookup(cfg, profile, "page-no"), parseInt, FallbackPageNo),
      pageSize := ResolveInt(a.pageSize, 0, Lookup(cfg, profile, "page-size"), parseInt, FallbackPageSize),
      totalRecords := ResolveInt(a.totalRecords, 0, Lookup(cfg, profile, "total-records"), parseInt, FallbackTotalRecords),
      maxDisplayedPages := ResolveInt(a.maxDisplayedPages, 0, Lookup(cfg, profile, "max-displayed-pages"), parseInt, FallbackMaxDisplayedPages),
      gapSize := ResolveInt(a.gapSize, 0, Lookup(cfg, profile, "gap-size"), parseInt, FallbackGapSize),
      pageSizeNavBlockSize := ResolveInt(a.pageSizeNavBlockSize, 0, Lookup(cfg, profile, "page-size-nav-block-size"), parseInt, FallbackBlockSize),
      pageSizeNavMaxItems := ResolveInt(a.pageSizeNavMaxItems, 0, Lookup(cfg, profile, "page-size-nav-max-items"), parseInt, FallbackMaxItems),
      pageKey := ResolveString(a.queryStringKeyPageNo, Lookup(cfg, profile, "query-string-key-page-no"), FallbackPageKey),
      sizeKey := ResolveString(a.queryStringKeyPageSize, Lookup(cfg, profile, "query-string-key-page-size"), FallbackSizeKey),
      query := ResolveString(a.queryStringValue, Lookup(cfg, profile, "query-string-value"), FallbackQuery),
      showFirstLast := ResolveBool(a.showFirstLast, Lookup(cfg, profile, "show-first-last"), parseBool),
      showPrevNext := ResolveBool(a.showPrevNext, Lookup(cfg, profile, "show-prev-next"), parseBool),
      showPageSizeNav := ResolveBool(a.showPageSizeNav, Lookup(cfg, profile, "show-page-size-nav"), parseBool),
      showTotalPages := ResolveBool(a.showTotalPages, Lookup(cfg, profile, "show-total-pages"), parseBool),
      showTotalRecords := ResolveBool(a.showTotalRecords, Lookup(cfg, profile, "show-total-records"), parseBool),
      showFirstNumberedPage := ResolveBool(a.showFirstNumberedPage, Lookup(cfg, profile, "show-first-numbered-page"), parseBool),
      showLastNumberedPage := ResolveBool(a.showLastNumberedPage, Lookup(cfg, profile, "show-last-numbered-page"), parseBool))
  }

  /** A bare tag with an empty configuration gets every hard-coded fallback. */
  lemma BareTagFallbacks(parseInt: string -> Option<int>, parseBool: string -> Option<bool>)
    ensures SetDefaults(Unset, map[], parseInt, parseBool)
         == Settings(1, 10, 0, 10, 3, 10, 3, "p", "s", "", false, false, false, false, false, false, false)
  {
  }

  /**
   * An explicit page number 1 is not kept: a parseable configured page number
   * replaces it, while an explicit page size 1 is kept.
   */
  lemma ExplicitFirstPageReplaced(a: Attributes, cfg: Config,
                                  parseInt: string -> Option<int>, parseBool: string -> Option<bool>, v: int)
    requires a.pageNo == 1 && a.pageSize == 1
    requires a.settingsJson.None? && ConfigKey(DefaultProfile, "page-no") in cfg
    requires parseInt(cfg[ConfigKey(DefaultProfile, "page-no")]) == Some(v)
    ensures SetDefaults(a, cfg, parseInt, parseBool).pageNo == v
    ensures SetDefaults(a, cfg, parseInt, parseBool).pageSize == 1
  {
  }
}

=== FILE: paging_control.dfy ===
/**
 * The paging control itself (`PagingTagHelper.Process`), rendered to an
 * abstract list of items instead of HTML: which links appear, in which order,
 * where the ellipses go, and which link is the disabled one.
 */
module PagingControl {
  import opened Wrappers
  import opened Boundaries
  import opened QueryString
  import opened Defaults

  datatype LinkKind = First | Previous | Numbered | Next | Last

  /**
   * The arguments of the href of a link; `Url()` is the query string the
   * anchor points at.
   */
  datatype PageRef = PageRef(pageNo: int, pageSize: int, query: string, pageKey: string, sizeKey: string) {

    function Url(): string {
      CreateUrlTemplate(pageNo, pageSize, query, pageKey, sizeKey)
    }
  }

  /**
   * One entry of the pagination list. A link without `href` is the disabled
   * one: it carries the disabled/active class and `tabindex=-1`.
   */
  datatype Item = Link(target: int, kind: LinkKind, href: Option<PageRef>) | Ellipsis {

    predicate Disabled() {
      Link? && href.None?
    }
  }

  /** An entry of the page-size drop-down. */
  datatype SizeOption = SizeOption(value: int, selected: bool)

  /** What the control shows: the links, the optional counters and the optional page-size list. */
  datatype Control = Control(
    links: seq<Item>,
    totalPagesInfo: Option<int>,
    totalRecordsInfo: Option<int>,
    pageSizeNav: Option<seq<SizeOption>>)

  /** A link to `target`: disabled exactly when it points at the current page, otherwise a rewritten query string. */
  function CreatePagingLink(st: Settings, target: int, kind: LinkKind): (it: Item)
    ensures it.Link? && it.target == target && it.kind == kind
    ensures it.Disabled() <==> target == st.pageNo
    ensures it.href.Some? ==> it.href.value == PageRef(target, st.pageSize, st.query, st.pageKey, st.sizeKey)
  {
    Link(target, kind, if st.pageNo == target then None
                       else Some(PageRef(target, st.pageSize, st.query, st.pageKey, st.sizeKey)))
  }

  /** The previous page, never below the first. */
  function PrevPage(pageNo: int): (r: int)
    ensures r >= 1
    ensures pageNo >= 2 ==> r == pageNo - 1
    ensures pageNo <= 2 ==> r == 1
  {
    if pageNo - 1 <= 1 then 1 else pageNo - 1
  }

  /** The next page, never beyond the last. */
  function NextPage(pageNo: int, totalPages: int): (r: int)
    ensures r <= totalPages
    ensures pageNo < totalPages ==> r == pageNo + 1
    ensures pageNo >= totalPages ==> r == totalPages
  {
    if pageNo + 1 > totalPages then totalPages else pageNo + 1
  }

  /** First/last buttons are shown when asked for, and forced on when not all pages fit. */
  predicate ShowsFirstLast(st: Settings, totalPages: int) {
    st.showFirstLast || totalPages > st.maxDisplayedPages
  }

  /** The "1 …" block before the window. */
  predicate LeadingGap(st: Settings, totalPages: int, w: Window) {
    && st.showFirstNumberedPage
    && w.start > st.gapSize
    && totalPages > st.maxDisplayedPages
    && st.pageNo >= st.maxDisplayedPages
  }

  /** The "… N" block after the window. */
  predicate TrailingGap(st: Settings, totalPages: int, w: Window) {
    && st.showLastNumberedPage
    && totalPages - w.end >= st.gapSize
    && st.pageNo - st.gapSize <= totalPages - st.maxDisplayedPages
  }

  /** The loop over the window: one numbered link per page from `lo` to `hi`. */
  function NumberedLinks(st: Settings, lo: int, hi: int): (r: seq<Item>)
    ensures |r| == Window(lo, hi).Width()
    ensures forall i :: 0 <= i < |r| ==> r[i] == CreatePagingLink(st, lo + i, Numbered)
    decreases hi - lo
  {
    if lo > hi then [] else [CreatePagingLink(st, lo, Numbered)] + NumberedLinks(st, lo + 1, hi)
  }

  function Optional(show: bool, items: seq<Item>): seq<Item> {
    if show then items else []
  }

  /**
   * The link list of a control with at least one page: first, previous, the
   * numbered block, next, last.
   */
  function Links(st: Settings): seq<Item>
    requires st.pageSize != 0
  {
    var pages := TotalPages(st.totalRecords, st.pageSize);
    LinkList(st, pages, CalculateBoundaries(st.pageNo, pages, st.maxDisplayedPages))
  }

  /** The link list for a given page count and window, section by section. */
  function LinkList(st: Settings, pages: int, w: Window): (r: seq<Item>)
    ensures |r| == BlockEnd(st, pages, w) + Count(st.showPrevNext, 1) + Count(ShowsFirstLast(st, pages), 1)
  {
    FirstButton(st, pages) + PrevButton(st) + NumberedBlock(st, pages, w) + NextButton(st, pages) + LastButton(st, pages)
  }

  function FirstButton(st: Settings, pages: int): seq<Item> {
    Optional(ShowsFirstLast(st, pages), [CreatePagingLink(st, 1, First)])
  }

  function PrevButton(st: Settings): seq<Item> {
    Optional(st.showPrevNext, [CreatePagingLink(st, PrevPage(st.pageNo), Previous)])
  }

  function NextButton(st: Settings, pages: int): seq<Item> {
    Optional(st.showPrevNext, [CreatePagingLink(st, NextPage(st.pageNo, pages), Next)])
  }

  function LastButton(st: Settings, pages: int): seq<Item> {
    Optional(ShowsFirstLast(st, pages), [CreatePagingLink(st, pages, Last)])
  }

  /** The numbered block: optional "1 …", the window, optional "… N". */
  function NumberedBlock(st: Settings, pages: int, w: Window): (r: seq<Item>)
    ensures |r| == Count(LeadingGap(st, pages, w), 2) + w.Width() + Count(TrailingGap(st, pages, w), 2)
    ensures forall i :: 0 <= i < |r| ==> r[i].Ellipsis? || r[i].kind == Numbered
  {
    Optional(LeadingGap(st, pages, w), [CreatePagingLink(st, 1, Numbered), Ellipsis])
    + NumberedLinks(st, w.start, w.end)
    + Optional(TrailingGap(st, pages, w), [Ellipsis, CreatePagingLink(st, pages, Numbered)])
  }

  /** The page-size options `i * blockSize` for `i` from `from` to `maxItems`. */
  function SizeOptionsFrom(from: int, maxItems: int, blockSize: int, pageSize: int): (r: seq<SizeOption>)
    ensures |r| == (if from <= maxItems then maxItems - from + 1 else 0)
    ensures forall k :: 0 <= k < |r| ==>
      r[k].value == (from + k) * blockSize && (r[k].selected <==> r[k].value == pageSize)
    decreases maxItems - from
  {
    if from > maxItems then []
    else [SizeOption(from * blockSize, from * blockSize == pageSize)] + SizeOptionsFrom(from + 1, maxItems, blockSize, pageSize)
  }

  /**
   * The options of the page-size drop-down (`CreatePageSizeControl`): one per
   * multiple `1 * blockSize` to `maxItems * blockSize`, the one equal to the
   * page size marked selected.
   */
  function CreatePageSizeControl(blockSize: int, maxItems: int, pageSize: int): (r: seq<SizeOption>)
    ensures |r| == (if maxItems >= 1 then maxItems else 0)
    ensures forall k :: 0 <= k < |r| ==>
      r[k].value == (k + 1) * blockSize && (r[k].selected <==> r[k].value == pageSize)
  {
    SizeOptionsFrom(1, maxItems, blockSize, pageSize)
  }

  /** `Process` on settings that already went through `SetDefaults`. */
  function Paginate(st: Settings): (r: Option<Control>)
    requires st.pageSize != 0
    ensures r.Some? <==> TotalPages(st.totalRecords, st.pageSize) > 0
    ensures st.pageSize >= 1 ==> (r.Some? <==> st.totalRecords > 0)
    ensures r.Some? ==>
      && (r.value.totalPagesInfo.Some? <==> st.showTotalPages)
      && (r.value.totalPagesInfo.Some? ==> r.value.totalPagesInfo.value == TotalPages(st.totalRecords, st.pageSize))
      && (r.value.totalRecordsInfo.Some? <==> st.showTotalRecords)
      && (r.value.totalRecordsInfo.Some? ==> r.value.totalRecordsInfo.value == st.totalRecords)
      && (r.value.pageSizeNav.Some? <==> st.showPageSizeNav)
    // the links are the laid-out list, each following the current-page rule
    ensures r.Some? ==>
      var pages := TotalPages(st.totalRecords, st.pageSize);
      && LaidOut(st, pages, CalculateBoundaries(st.pageNo, pages, st.maxDisplayedPages), r.value.links)
      && (forall x :: x in r.value.links ==> LinkRule(st, x))
    // the drop-down offers the multiples of the block size, the page size selected
    ensures r.Some? && r.value.pageSizeNav.Some? ==>
      var opts := r.value.pageSizeNav.value;
      && |opts| == (if st.pageSizeNavMaxItems >= 1 then st.pageSizeNavMaxItems else 0)
      && (forall k :: 0 <= k < |opts| ==>
            opts[k].value == (k + 1) * st.pageSizeNavBlockSize && (opts[k].selected <==> opts[k].value == st.pageSize))
  {
    var pages := TotalPages(st.totalRecords, st.pageSize);
    if pages > 0 then
      LinksLayout(st);
      LinksDisabledRule(st);
      Some(Control(
        Links(st),
        if st.showTotalPages then Some(pages) else None,
        if st.showTotalRecords then Some(st.totalRecords) else None,
        if st.showPageSizeNav
        then Some(CreatePageSizeControl(st.pageSizeNavBlockSize, st.pageSizeNavMaxItems, st.pageSize))
        else None))
    else None
  }

  /** `Process`: resolve the settings, then render; nothing is rendered when there are no records. */
  function Process(a: Attributes, cfg: Config,
                   parseInt: string -> Option<int>, parseBool: string -> Option<bool>): (r: Option<Control>)
    requires SetDefaults(a, cfg, parseInt, parseBool).pageSize != 0
    ensures var st := SetDefaults(a, cfg, parseInt, parseBool);
      r.Some? <==> TotalPages(st.totalRecords, st.pageSize) > 0
    ensures a.pageSize > 0 && a.totalRecords > 0 ==> r.Some?
    ensures a.totalRecords <= 0 && a.settingsJson.None? && cfg == map[] ==> r.None?
    ensures r.Some? ==>
      var st := SetDefaults(a, cfg, parseInt, parseBool);
      var pages := TotalPages(st.totalRecords, st.pageSize);
      && LaidOut(st, pages, CalculateBoundaries(st.pageNo, pages, st.maxDisplayedPages), r.value.links)
      && (forall x :: x in r.value.links ==> LinkRule(st, x))
  {
    Paginate(SetDefaults(a, cfg, parseInt, parseBool))
  }

  // ---------------------------------------------------------------------
  // Properties of the link list
  //
  // Ranks give a coarse view of the list: which section each item belongs to
  // and that the sections come in order. `LinksLayout` below fixes every index
  // and so implies this order; the rank view is kept because it is stated
  // and proved section by section, far more cheaply than the layout.

  /** Position of an item's section: first, previous, numbered block, next, last. */
  function Rank(x: Item): int {
    match x
    case Ellipsis => 2
    case Link(_, kind, _) =>
      match kind
      case First => 0
      case Previous => 1
      case Numbered => 2
      case Next => 3
      case Last => 4
  }

  predicate Ordered(r: seq<Item>) {
    forall i, j :: 0 <= i < j < |r| ==> Rank(r[i]) <= Rank(r[j])
  }

  predicate RanksWithin(r: seq<Item>, lo: int, hi: int) {
    forall i :: 0 <= i < |r| ==> lo <= Rank(r[i]) <= hi
  }

  /** Appending a block whose ranks start where the first block's ranks end keeps the order. */
  lemma OrderedAppend(a: seq<Item>, b: seq<Item>, lo: int, k: int, hi: int)
    requires lo <= k <= hi
    requires Ordered(a) && RanksWithin(a, lo, k)
    requires Ordered(b) && RanksWithin(b, k, hi)
    ensures Ordered(a + b) && RanksWithin(a + b, lo, hi)
  {
    var ab := a + b;
    forall i, j | 0 <= i < j < |ab| ensures Rank(ab[i]) <= Rank(ab[j]) {
      if j < |a| {
        assert ab[i] == a[i] && ab[j] == a[j];
      } else if i >= |a| {
        assert ab[i] == b[i - |a|] && ab[j] == b[j - |a|];
      } else {
        assert ab[i] == a[i] && ab[j] == b[j - |a|];
      }
    }
    forall i | 0 <= i < |ab| ensures lo <= Rank(ab[i]) <= hi {
      if i < |a| {
        assert ab[i] == a[i];
      } else {
        assert ab[i] == b[i - |a|];
      }
    }
  }

  lemma OptionalRank(show: bool, x: Item)
    ensures Ordered(Optional(show, [x])) && RanksWithin(Optional(show, [x]), Rank(x), Rank(x))
  {
  }

  lemma BlockRanks(st: Settings, pages: int, w: Window)
    ensures RanksWithin(NumberedBlock(st, pages, w), 2, 2)
  {
    var lead := Optional(LeadingGap(st, pages, w), [CreatePagingLink(st, 1, Numbered), Ellipsis]);
    var nums := NumberedLinks(st, w.start, w.end);
    var trail := Optional(TrailingGap(st, pages, w), [Ellipsis, CreatePagingLink(st, pages, Numbered)]);
    var m := lead + nums + trail;
    forall i | 0 <= i < |m| ensures Rank(m[i]) == 2 {
      if i < |lead| {
        assert m[i] == lead[i];
      } else if i < |lead| + |nums| {
        assert m[i] == nums[i - |lead|];
      } else {
        assert m[i] == trail[i - |lead| - |nums|];
      }
    }
  }

  /**
   * The links come in the order first, previous, the numbered block (with
   * its ellipses), next, last.
   */
  lemma LinksOrdered(st: Settings)
    requires st.pageSize != 0
    ensures Ordered(Links(st))
  {
    var pages := TotalPages(st.totalRecords, st.pageSize);
    var s0 := FirstButton(st, pages);
    var s1 := PrevButton(st);
    var w := CalculateBoundaries(st.pageNo, pages, st.maxDisplayedPages);
    var s2 := NumberedBlock(st, pages, w);
    var s3 := NextButton(st, pages);
    var s4 := LastButton(st, pages);
    BlockRanks(st, pages, w);
    OptionalRank(ShowsFirstLast(st, pages), CreatePagingLink(st, 1, First));
    OptionalRank(st.showPrevNext, CreatePagingLink(st, PrevPage(st.pageNo), Previous));
    OptionalRank(st.showPrevNext, CreatePagingLink(st, NextPage(st.pageNo, pages), Next));
    OptionalRank(ShowsFirstLast(st, pages), CreatePagingLink(st, pages, Last));
    assert Links(st) == s0 + s1 + s2 + s3 + s4;
    OrderedSections(s0, s1, s2, s3, s4);
  }

  /** Five blocks of ranks 0, 1, 2, 3 and 4, in that order, form an ordered list. */
  lemma OrderedSections(s0: seq<Item>, s1: seq<Item>, s2: seq<Item>, s3: seq<Item>, s4: seq<Item>)
    requires Ordered(s0) && RanksWithin(s0, 0, 0)
    requires Ordered(s1) && RanksWithin(s1, 1, 1)
    requires RanksWithin(s2, 2, 2)
    requires Ordered(s3) && RanksWithin(s3, 3, 3)
    requires Ordered(s4) && RanksWithin(s4, 4, 4)
    ensures Ordered(s0 + s1 + s2 + s3 + s4)
  {
    assert Ordered(s2);
    OrderedAppend(s0, s1, 0, 0, 1);
    OrderedAppend(s0 + s1, s2, 0, 2, 2);
    OrderedAppend(s0 + s1 + s2, s3, 0, 2, 3);
    OrderedAppend(s0 + s1 + s2 + s3, s4, 0, 3, 4);
  }

  /** Every link obeys the current-page rule: no href exactly on the current page, the rewritten query elsewhere. */
  predicate LinkRule(st: Settings, x: Item) {
    x.Link? ==>
      && (x.Disabled() <==> x.target == st.pageNo)
      && (x.href.Some? ==> x.href.value == PageRef(x.target, st.pageSize, st.query, st.pageKey, st.sizeKey))
  }

  lemma LinksDisabledRule(st: Settings)
    requires st.pageSize != 0
    ensures forall x :: x in Links(st) ==> LinkRule(st, x)
  {
    var pages := TotalPages(st.totalRecords, st.pageSize);
    LinkListRule(st, pages, CalculateBoundaries(st.pageNo, pages, st.maxDisplayedPages));
  }

  /** The current-page rule holds for any page count and window. */
  lemma LinkListRule(st: Settings, pages: int, w: Window)
    ensures forall x :: x in LinkList(st, pages, w) ==> LinkRule(st, x)
  {
    var nums := NumberedLinks(st, w.start, w.end);
    forall x | x in nums ensures LinkRule(st, x) {
      var i :| 0 <= i < |nums| && nums[i] == x;
    }
  }

  predicate HasKind(r: seq<Item>, kind: LinkKind) {
    exists i :: 0 <= i < |r| && r[i].Link? && r[i].kind == kind
  }

  lemma NoKind(r: seq<Item>, kind: LinkKind, k: int)
    requires RanksWithin(r, k, k)
    requires Rank(Link(0, kind, None)) != k
    ensures !HasKind(r, kind)
  {
    forall i | 0 <= i < |r| && r[i].Link? ensures r[i].kind != kind {
      assert Rank(r[i]) == k;
    }
  }

  /**
   * Jump links: first and last appear exactly when asked for or when not all
   * pages fit; previous and next exactly when asked for. First opens and last
   * closes the list.
   */
  lemma LinksJumpButtons(st: Settings)
    requires st.pageSize != 0
    ensures var pages := TotalPages(st.totalRecords, st.pageSize);
      var r := Links(st);
      && (HasKind(r, First) <==> st.showFirstLast || pages > st.maxDisplayedPages)
      && (HasKind(r, Last) <==> st.showFirstLast || pages > st.maxDisplayedPages)
      && (HasKind(r, Previous) <==> st.showPrevNext)
      && (HasKind(r, Next) <==> st.showPrevNext)
      && (st.showFirstLast || pages > st.maxDisplayedPages ==>
            r[0] == CreatePagingLink(st, 1, First) && r[|r| - 1] == CreatePagingLink(st, pages, Last))
  {
    var pages := TotalPages(st.totalRecords, st.pageSize);
    var s0 := FirstButton(st, pages);
    var s1 := PrevButton(st);
    var w := CalculateBoundaries(st.pageNo, pages, st.maxDisplayedPages);
    var s2 := NumberedBlock(st, pages, w);
    var s3 := NextButton(st, pages);
    var s4 := LastButton(st, pages);
    var r := s0 + s1 + s2 + s3 + s4;
    BlockRanks(st, pages, w);
    assert Links(st) == r;
    forall kind | true
      ensures HasKind(r, kind) <==> HasKind(s0, kind) || HasKind(s1, kind) || HasKind(s2, kind) || HasKind(s3, kind) || HasKind(s4, kind)
    {
      HasKindAppend(s0, s1, kind);
      HasKindAppend(s0 + s1, s2, kind);
      HasKindAppend(s0 + s1 + s2, s3, kind);
      HasKindAppend(s0 + s1 + s2 + s3, s4, kind);
    }
    NoKind(s2, First, 2);
    NoKind(s2, Last, 2);
    NoKind(s2, Previous, 2);
    NoKind(s2, Next, 2);
    if ShowsFirstLast(st, pages) {
      assert s0[0].kind == First;
      assert s4[0].kind == Last;
      assert r[0] == s0[0];
      assert r[|r| - 1] == s4[0];
    }
    if st.showPrevNext {
      assert s1[0].kind == Previous;
      assert s3[0].kind == Next;
    }
  }

  lemma HasKindAppend(a: seq<Item>, b: seq<Item>, kind: LinkKind)
    ensures HasKind(a + b, kind) <==> HasKind(a, kind) || HasKind(b, kind)
  {
    var ab := a + b;
    if HasKind(ab, kind) {
      var i :| 0 <= i < |ab| && ab[i].Link? && ab[i].kind == kind;
      if i < |a| {
        assert a[i] == ab[i];
      } else {
        assert b[i - |a|] == ab[i];
      }
    }
    if HasKind(a, kind) {
      var i :| 0 <= i < |a| && a[i].Link? && a[i].kind == kind;
      assert ab[i] == a[i];
    }
    if HasKind(b, kind) {
      var i :| 0 <= i < |b| && b[i].Link? && b[i].kind == kind;
      assert ab[|a| + i] == b[i];
    }
  }

  /** The "1 …" and "… N" blocks hold one ellipsis each; the window holds none. */
  lemma BlockEllipses(st: Settings, pages: int, w: Window)
    ensures multiset(NumberedBlock(st, pages, w))[Ellipsis] ==
      (if LeadingGap(st, pages, w) then 1 else 0) + (if TrailingGap(st, pages, w) then 1 else 0)
  {
    var lead := Optional(LeadingGap(st, pages, w), [CreatePagingLink(st, 1, Numbered), Ellipsis]);
    var nums := NumberedLinks(st, w.start, w.end);
    var trail := Optional(TrailingGap(st, pages, w), [Ellipsis, CreatePagingLink(st, pages, Numbered)]);
    assert Ellipsis !in nums by {
      forall i | 0 <= i < |nums| ensures nums[i] != Ellipsis {
      }
    }
    assert multiset(nums)[Ellipsis] == 0;
    assert multiset(lead)[Ellipsis] == if LeadingGap(st, pages, w) then 1 else 0;
    assert multiset(trail)[Ellipsis] == if TrailingGap(st, pages, w) then 1 else 0;
    assert NumberedBlock(st, pages, w) == lead + nums + trail;
  }

  /**
   * Ellipses: one before the window exactly when the "1 …" block is shown,
   * one after it exactly when the "… N" block is shown, and no others.
   */
  lemma LinksEllipses(st: Settings)
    requires st.pageSize != 0
    ensures var pages := TotalPages(st.totalRecords, st.pageSize);
      var w := CalculateBoundaries(st.pageNo, pages, st.maxDisplayedPages);
      multiset(Links(st))[Ellipsis] ==
        (if LeadingGap(st, pages, w) then 1 else 0) + (if TrailingGap(st, pages, w) then 1 else 0)
  {
    var pages := TotalPages(st.totalRecords, st.pageSize);
    var s0 := FirstButton(st, pages);
    var s1 := PrevButton(st);
    var s3 := NextButton(st, pages);
    var s4 := LastButton(st, pages);
    var w := CalculateBoundaries(st.pageNo, pages, st.maxDisplayedPages);
    BlockEllipses(st, pages, w);
    assert Links(st) == s0 + s1 + NumberedBlock(st, pages, w) + s3 + s4;
    assert multiset(s0)[Ellipsis] == 0 && multiset(s1)[Ellipsis] == 0;
    assert multiset(s3)[Ellipsis] == 0 && multiset(s4)[Ellipsis] == 0;
  }

  /**
   * With the current page among the pages and a positive maximum, the window
   * shows it as a disabled numbered link, and every link of the list points at
   * an existing page.
   */
  lemma LinksCurrentPage(st: Settings)
    requires st.pageSize != 0 && st.maxDisplayedPages >= 1
    requires 1 <= st.pageNo <= TotalPages(st.totalRecords, st.pageSize)
    ensures CreatePagingLink(st, st.pageNo, Numbered) in Links(st)
    ensures CreatePagingLink(st, st.pageNo, Numbered).Disabled()
    ensures forall x :: x in Links(st) && x.Link? ==> 1 <= x.target <= TotalPages(st.totalRecords, st.pageSize)
  {
    var pages := TotalPages(st.totalRecords, st.pageSize);
    var w := CalculateBoundaries(st.pageNo, pages, st.maxDisplayedPages);
    var nums := NumberedLinks(st, w.start, w.end);
    assert nums[st.pageNo - w.start] == CreatePagingLink(st, st.pageNo, Numbered);
    forall x | x in nums ensures 1 <= x.target <= pages {
      var i :| 0 <= i < |nums| && nums[i] == x;
    }
  }

  // ---------------------------------------------------------------------
  // The link list index by index. The layout is proved for any page count
  // and window (`LinkListLayout`) and then instantiated with the ones the
  // settings produce (`LinksLayout`).
  //
  // The small lemmas of this section (`BlockLayout`, `GapsAround`,
  // `WindowBetween`, `Concat3`, `BlockBetween`, `PlaceBlock`, `Regroup`,
  // `ShiftedWindow`) each place the pieces of one concatenation. Several
  // need no proof of their own; they exist so that each step is checked in a
  // small context, which keeps `LinksLayout` within the solver's budget.

  /**
   * The numbered block laid out index by index: `l` items of "1 …", then the
   * window in ascending order, then `t` items of "… N".
   */
  lemma BlockLayout(st: Settings, pages: int, w: Window)
    ensures var m := NumberedBlock(st, pages, w);
      var l := Count(LeadingGap(st, pages, w), 2);
      var n := w.Width();
      var t := Count(TrailingGap(st, pages, w), 2);
      && |m| == l + n + t
      && (forall j :: l <= j < l + n ==> m[j] == CreatePagingLink(st, w.start + (j - l), Numbered))
      && (LeadingGap(st, pages, w) ==> m[0] == CreatePagingLink(st, 1, Numbered) && m[1] == Ellipsis)
      && (TrailingGap(st, pages, w) ==> m[l + n] == Ellipsis && m[l + n + 1] == CreatePagingLink(st, pages, Numbered))
  {
    GapsAround(st, w.start, w.end, LeadingGap(st, pages, w), TrailingGap(st, pages, w), pages);
  }

  /** The window with an optional "1 …" before it and an optional "… N" after it. */
  lemma GapsAround(st: Settings, lo: int, hi: int, leading: bool, trailing: bool, pages: int)
    ensures var lead := Optional(leading, [CreatePagingLink(st, 1, Numbered), Ellipsis]);
      var trail := Optional(trailing, [Ellipsis, CreatePagingLink(st, pages, Numbered)]);
      var m := lead + NumberedLinks(st, lo, hi) + trail;
      var l := Count(leading, 2);
      var n := Window(lo, hi).Width();
      var t := Count(trailing, 2);
      && |m| == l + n + t
      && (forall j :: l <= j < l + n ==> m[j] == CreatePagingLink(st, lo + (j - l), Numbered))
      && (leading ==> m[0] == CreatePagingLink(st, 1, Numbered) && m[1] == Ellipsis)
      && (trailing ==> m[l + n] == Ellipsis && m[l + n + 1] == CreatePagingLink(st, pages, Numbered))
  {
    var lead := Optional(leading, [CreatePagingLink(st, 1, Numbered), Ellipsis]);
    var trail := Optional(trailing, [Ellipsis, CreatePagingLink(st, pages, Numbered)]);
    WindowBetween(st, lo, hi, lead, NumberedLinks(st, lo, hi), trail);
  }

  /** Links to `lo`, …, `hi` keep their order between any `lead` and `trail`. */
  lemma WindowBetween(st: Settings, lo: int, hi: int, lead: seq<Item>, nums: seq<Item>, trail: seq<Item>)
    requires |nums| == Window(lo, hi).Width()
    requires forall i :: 0 <= i < |nums| ==> nums[i] == CreatePagingLink(st, lo + i, Numbered)
    ensures var m := lead + nums + trail;
      var l := |lead|;
      var n := |nums|;
      && |m| == l + n + |trail|
      && (forall j :: l <= j < l + n ==> m[j] == CreatePagingLink(st, lo + (j - l), Numbered))
      && (forall j :: 0 <= j < l ==> m[j] == lead[j])
      && (forall j :: 0 <= j < |trail| ==> m[l + n + j] == trail[j])
  {
    Concat3(lead, nums, trail);
  }

  /** Where the items of `a`, `b` and `c` land in `a + b + c`. */
  lemma Concat3<T>(a: seq<T>, b: seq<T>, c: seq<T>)
    ensures |a + b + c| == |a| + |b| + |c|
    ensures forall j :: 0 <= j < |a| ==> (a + b + c)[j] == a[j]
    ensures forall j :: |a| <= j < |a| + |b| ==> (a + b + c)[j] == b[j - |a|]
    ensures forall j :: 0 <= j < |c| ==> (a + b + c)[|a| + |b| + j] == c[j]
  {
  }

  function Count(shown: bool, k: nat): nat {
    if shown then k else 0
  }

  /** Index of the first window link: after first, previous and "1 …", each when shown. */
  function WindowIndex(st: Settings, pages: int, w: Window): nat {
    Count(ShowsFirstLast(st, pages), 1) + Count(st.showPrevNext, 1) + Count(LeadingGap(st, pages, w), 2)
  }

  /** Index just past the numbered block ("… N" included). */
  function BlockEnd(st: Settings, pages: int, w: Window): int {
    WindowIndex(st, pages, w) + w.Width() + Count(TrailingGap(st, pages, w), 2)
  }

  /**
   * The link list `r` for `pages` pages and window `w`: its length counts
   * first, previous, "1 …", the window, "… N", next and last, each when
   * shown, and the window's links sit in ascending order from
   * `WindowIndex`, with "1 …" right before them and "… N" right after.
   */
  predicate BlockPlaced(st: Settings, pages: int, w: Window, r: seq<Item>) {
    var a := WindowIndex(st, pages, w);
    var e := BlockEnd(st, pages, w);
    && |r| == e + Count(st.showPrevNext, 1) + Count(ShowsFirstLast(st, pages), 1)
    && (forall j :: a <= j < a + w.Width() ==> r[j] == CreatePagingLink(st, w.start + (j - a), Numbered))
    && (LeadingGap(st, pages, w) ==> r[a - 2] == CreatePagingLink(st, 1, Numbered) && r[a - 1] == Ellipsis)
    && (TrailingGap(st, pages, w) ==> r[e - 2] == Ellipsis && r[e - 1] == CreatePagingLink(st, pages, Numbered))
  }

  /**
   * The jump links of `r`: first (if shown) opens the list and targets page 1,
   * previous (if shown) follows it and targets max(1, PageNo - 1), next (if
   * shown) follows the numbered block and targets min(pages, PageNo + 1), and
   * last (if shown) closes the list and targets the last page.
   */
  predicate JumpsPlaced(st: Settings, pages: int, w: Window, r: seq<Item>) {
    var f := Count(ShowsFirstLast(st, pages), 1);
    var e := BlockEnd(st, pages, w);
    && |r| == e + Count(st.showPrevNext, 1) + f
    && (st.showPrevNext ==>
          && r[f] == CreatePagingLink(st, if st.pageNo - 1 >= 1 then st.pageNo - 1 else 1, Previous)
          && r[e] == CreatePagingLink(st, if st.pageNo + 1 <= pages then st.pageNo + 1 else pages, Next))
    && (ShowsFirstLast(st, pages) ==>
          r[0] == CreatePagingLink(st, 1, First) && r[|r| - 1] == CreatePagingLink(st, pages, Last))
  }

  /**
   * The whole list index by index. Every index is accounted for, so the
   * leading ellipsis is the first one and sits between the link to page 1 and
   * the window, and the trailing one is the last and sits between the window
   * and the numbered link to the last page.
   */
  predicate LaidOut(st: Settings, pages: int, w: Window, r: seq<Item>) {
    BlockPlaced(st, pages, w, r) && JumpsPlaced(st, pages, w, r)
  }

  lemma LinkListBlock(st: Settings, pages: int, w: Window)
    ensures BlockPlaced(st, pages, w, LinkList(st, pages, w))
  {
    var s0 := FirstButton(st, pages);
    var s1 := PrevButton(st);
    var m := NumberedBlock(st, pages, w);
    var s3 := NextButton(st, pages);
    var s4 := LastButton(st, pages);
    BlockLayout(st, pages, w);
    Regroup(s0, s1, m, s3, s4);
    BlockBetween(st, pages, w, s0 + s1, m, s3 + s4);
  }

  /** `BlockPlaced` for any list made of a laid-out numbered block between the jump links. */
  lemma BlockBetween(st: Settings, pages: int, w: Window, pre: seq<Item>, m: seq<Item>, post: seq<Item>)
    requires |pre| == Count(ShowsFirstLast(st, pages), 1) + Count(st.showPrevNext, 1)
    requires |post| == Count(st.showPrevNext, 1) + Count(ShowsFirstLast(st, pages), 1)
    requires var l := Count(LeadingGap(st, pages, w), 2);
      var n := w.Width();
      var t := Count(TrailingGap(st, pages, w), 2);
      && |m| == l + n + t
      && (forall j :: l <= j < l + n ==> m[j] == CreatePagingLink(st, w.start + (j - l), Numbered))
      && (LeadingGap(st, pages, w) ==> m[0] == CreatePagingLink(st, 1, Numbered) && m[1] == Ellipsis)
      && (TrailingGap(st, pages, w) ==> m[l + n] == Ellipsis && m[l + n + 1] == CreatePagingLink(st, pages, Numbered))
    ensures BlockPlaced(st, pages, w, pre + m + post)
  {
    PlaceBlock(st, pre, m, post, Count(LeadingGap(st, pages, w), 2), w.Width(), Count(TrailingGap(st, pages, w), 2), w.start);
  }

  /**
   * A numbered block put between two others: the window keeps its order, and
   * the two items on either side of it stay next to it.
   */
  lemma PlaceBlock(st: Settings, pre: seq<Item>, m: seq<Item>, post: seq<Item>, l: nat, n: nat, t: nat, lo: int)
    requires |m| == l + n + t
    requires forall j :: l <= j < l + n ==> m[j] == CreatePagingLink(st, lo + (j - l), Numbered)
    ensures var r := pre + m + post;
      var a := |pre| + l;
      && |r| == a + n + t + |post|
      && (forall j :: a <= j < a + n ==> r[j] == CreatePagingLink(st, lo + (j - a), Numbered))
      && (l >= 2 ==> r[a - 2] == m[l - 2] && r[a - 1] == m[l - 1])
      && (t >= 2 ==> r[a + n] == m[l + n] && r[a + n + 1] == m[l + n + 1])
  {
    ShiftedWindow(st, pre, m, post, l, n, lo);
    var r := pre + m + post;
    if l >= 2 {
      assert r[|pre| + l - 2] == m[l - 2];
      assert r[|pre| + l - 1] == m[l - 1];
    }
    if t >= 2 {
      assert r[|pre| + l + n] == m[l + n];
      assert r[|pre| + l + n + 1] == m[l + n + 1];
    }
  }

  lemma LinkListJumps(st: Settings, pages: int, w: Window)
    ensures JumpsPlaced(st, pages, w, LinkList(st, pages, w))
  {
    var s0 := FirstButton(st, pages);
    var s1 := PrevButton(st);
    var m := NumberedBlock(st, pages, w);
    var s3 := NextButton(st, pages);
    var s4 := LastButton(st, pages);
    BlockLayout(st, pages, w);
    assert |m| == BlockEnd(st, pages, w) - Count(ShowsFirstLast(st, pages), 1) - Count(st.showPrevNext, 1);
    Regroup(s0, s1, m, s3, s4);
    var pre := s0 + s1;
    var post := s3 + s4;
    var r := pre + m + post;
    if st.showPrevNext {
      assert r[|s0|] == pre[|s0|] == s1[0];
      assert r[|pre| + |m|] == post[0] == s3[0];
    }
    if ShowsFirstLast(st, pages) {
      assert r[0] == pre[0] == s0[0];
      assert r[|r| - 1] == post[|post| - 1] == s4[0];
    }
  }

  lemma LinkListLayout(st: Settings, pages: int, w: Window)
    ensures LaidOut(st, pages, w, LinkList(st, pages, w))
  {
    LinkListBlock(st, pages, w);
    LinkListJumps(st, pages, w);
  }

  /** The rendered link list is laid out as `LaidOut` describes, for the page count and window of the settings. */
  lemma LinksLayout(st: Settings)
    requires st.pageSize != 0
    ensures var pages := TotalPages(st.totalRecords, st.pageSize);
      LaidOut(st, pages, CalculateBoundaries(st.pageNo, pages, st.maxDisplayedPages), Links(st))
  {
    var pages := TotalPages(st.totalRecords, st.pageSize);
    LinkListLayout(st, pages, CalculateBoundaries(st.pageNo, pages, st.maxDisplayedPages));
  }

  lemma Regroup(s0: seq<Item>, s1: seq<Item>, m: seq<Item>, s3: seq<Item>, s4: seq<Item>)
    ensures s0 + s1 + m + s3 + s4 == (s0 + s1) + m + (s3 + s4)
  {
    assert s0 + s1 + m + s3 + s4 == (s0 + s1 + m) + (s3 + s4);
  }

  /** A run of numbered links inside `m` keeps its order once `m` is put between two blocks. */
  lemma ShiftedWindow(st: Settings, pre: seq<Item>, m: seq<Item>, post: seq<Item>, l: int, n: int, lo: int)
    requires 0 <= l && 0 <= n && l + n <= |m|
    requires forall j :: l <= j < l + n ==> m[j] == CreatePagingLink(st, lo + (j - l), Numbered)
    ensures forall j :: |pre| + l <= j < |pre| + l + n ==>
      (pre + m + post)[j] == CreatePagingLink(st, lo + (j - |pre| - l), Numbered)
  {
    forall j | |pre| + l <= j < |pre| + l + n
      ensures (pre + m + post)[j] == CreatePagingLink(st, lo + (j - |pre| - l), Numbered)
    {
      assert (pre + m + post)[j] == m[j - |pre|];
    }
  }

  /**
   * Every previous link in the list points at max(1, PageNo - 1) and is
   * disabled exactly on page 1; every next link points at
   * min(TotalPages, PageNo + 1) and is disabled exactly on the last page; the
   * first link is disabled exactly on page 1 and the last link exactly on the
   * last page.
   */
  lemma JumpTargets(st: Settings)
    requires st.pageSize != 0
    ensures var pages := TotalPages(st.totalRecords, st.pageSize);
      var r := Links(st);
      forall i :: 0 <= i < |r| && r[i].Link? ==>
        && (r[i].kind == Previous ==>
              r[i].target == (if st.pageNo - 1 >= 1 then st.pageNo - 1 else 1) && (r[i].Disabled() <==> st.pageNo == 1))
        && (r[i].kind == Next ==>
              r[i].target == (if st.pageNo + 1 <= pages then st.pageNo + 1 else pages) && (r[i].Disabled() <==> st.pageNo == pages))
        && (r[i].kind == First ==> r[i].target == 1 && (r[i].Disabled() <==> st.pageNo == 1))
        && (r[i].kind == Last ==> r[i].target == pages && (r[i].Disabled() <==> st.pageNo == pages))
  {
    var pages := TotalPages(st.totalRecords, st.pageSize);
    var s0 := FirstButton(st, pages);
    var s1 := PrevButton(st);
    var w := CalculateBoundaries(st.pageNo, pages, st.maxDisplayedPages);
    var m := NumberedBlock(st, pages, w);
    var s3 := NextButton(st, pages);
    var s4 := LastButton(st, pages);
    BlockRanks(st, pages, w);
    Regroup(s0, s1, m, s3, s4);
    OutsideBlock(s0 + s1, m, s3 + s4);
  }

  /** The links of a list other than numbered ones come from the blocks around a block of rank 2. */
  lemma OutsideBlock(pre: seq<Item>, m: seq<Item>, post: seq<Item>)
    requires RanksWithin(m, 2, 2)
    ensures forall i :: 0 <= i < |pre + m + post| && (pre + m + post)[i].Link? && (pre + m + post)[i].kind != Numbered ==>
      (pre + m + post)[i] in pre || (pre + m + post)[i] in post
  {
    var r := pre + m + post;
    forall i | 0 <= i < |r| && r[i].Link? && r[i].kind != Numbered
      ensures r[i] in pre || r[i] in post
    {
      if i < |pre| {
        assert r[i] == pre[i];
      } else if i < |pre| + |m| {
        assert false;
      } else {
        assert r[i] == post[i - |pre| - |m|];
      }
    }
  }

  /**
   * Thirty records, ten per page, page 2, previous/next on: previous to 1,
   * the three pages with page 2 disabled, next to 3; no first/last since all
   * pages fit.
   */
  lemma LinksExampleSmall(st: Settings)
    requires st == Settings(2, 10, 30, 10, 3, 10, 3, "p", "s", "", false, true, false, false, false, false, false)
    ensures Links(st) == [
      Link(1, Previous, Some(PageRef(1, 10, "", "p", "s"))),
      Link(1, Numbered, Some(PageRef(1, 10, "", "p", "s"))),
      Link(2, Numbered, None),
      Link(3, Numbered, Some(PageRef(3, 10, "", "p", "s"))),
      Link(3, Next, Some(PageRef(3, 10, "", "p", "s")))]
  {
    assert TotalPages(30, 10) == 3;
    assert CalculateBoundaries(2, 3, 10) == Window(1, 3);
    var nums := NumberedLinks(st, 1, 3);
    assert nums == [CreatePagingLink(st, 1, Numbered), CreatePagingLink(st, 2, Numbered), CreatePagingLink(st, 3, Numbered)];
  }

  /**
   * A hundred records, ten per page, page 5, at most five numbered links:
   * first/last are forced on, the window is pages 2 to 7, and "… 10" follows it.
   */
  lemma LinksExampleForcedJumps(st: Settings)
    requires st == Settings(5, 10, 100, 5, 3, 10, 3, "p", "s", "", false, false, false, false, false, true, true)
    ensures var r := Links(st);
      && |r| == 10
      && r[0] == Link(1, First, Some(PageRef(1, 10, "", "p", "s")))
      && r[1] == Link(2, Numbered, Some(PageRef(2, 10, "", "p", "s")))
      && r[4] == Link(5, Numbered, None)
      && r[6] == Link(7, Numbered, Some(PageRef(7, 10, "", "p", "s")))
      && r[7] == Ellipsis
      && r[8] == Link(10, Numbered, Some(PageRef(10, 10, "", "p", "s")))
      && r[9] == Link(10, Last, Some(PageRef(10, 10, "", "p", "s")))
  {
    assert TotalPages(100, 10) == 10;
    var w := CalculateBoundaries(5, 10, 5);
    assert w == Window(2, 7);
    var pages := TotalPages(st.totalRecords, st.pageSize);
    assert !LeadingGap(st, pages, w);
    assert TrailingGap(st, pages, w);
    var nums := NumberedLinks(st, 2, 7);
    assert NumberedBlock(st, pages, w) == [] + nums + [Ellipsis, CreatePagingLink(st, 10, Numbered)];
    assert Links(st) == [CreatePagingLink(st, 1, First)] + [] + NumberedBlock(st, pages, w) + [] + [CreatePagingLink(st, 10, Last)];
  }

  // ---------------------------------------------------------------------
  // Properties of the page-size list

  /** With a positive block size the options are the multiples of it, strictly increasing. */
  lemma PageSizeOptionsIncreasing(blockSize: int, maxItems: int, pageSize: int)
    requires blockSize >= 1
    ensures var r := CreatePageSizeControl(blockSize, maxItems, pageSize);
      && |r| == (if maxItems >= 1 then maxItems else 0)
      && (forall i, j :: 0 <= i < j < |r| ==> r[i].value < r[j].value)
      && (forall i :: 0 <= i < |r| ==> blockSize <= r[i].value <= maxItems * blockSize)
  {
    var r := CreatePageSizeControl(blockSize, maxItems, pageSize);
    forall i, j | 0 <= i < j < |r| ensures r[i].value < r[j].value {
      MulStrict(i + 1, j + 1, blockSize);
    }
    forall i | 0 <= i < |r| ensures blockSize <= r[i].value <= maxItems * blockSize {
      MulMono(1, i + 1, blockSize);
      MulMono(i + 1, maxItems, blockSize);
    }
  }

  lemma MulStrict(a: int, b: int, c: int)
    requires a < b && c >= 1
    ensures a * c < b * c
  {
    assert b * c - a * c == (b - a) * c;
  }

  lemma MulMono(a: int, b: int, c: int)
    requires a <= b && c >= 1
    ensures a * c <= b * c
  {
    assert b * c - a * c == (b - a) * c;
  }

  lemma DivExact(q: int, b: int)
    requires b >= 1
    ensures (q * b) / b == q && (q * b) % b == 0
  {
    var x := q * b;
    var d := x / b - q;
    assert x == b * (x / b) + x % b;
    assert b * d == -(x % b);
    if d >= 1 {
      MulMono(1, d, b);
    } else if d <= -1 {
      MulMono(d, -1, b);
    }
  }

  /**
   * With a positive block size the current page size is marked selected
   * exactly when it is one of the offered multiples, and at most one option is
   * marked.
   */
  lemma PageSizeSelection(blockSize: int, maxItems: int, pageSize: int)
    requires blockSize >= 1
    ensures var r := CreatePageSizeControl(blockSize, maxItems, pageSize);
      && ((exists i :: 0 <= i < |r| && r[i].selected) <==>
            pageSize % blockSize == 0 && 1 <= pageSize / blockSize <= maxItems)
      && (forall i, j :: 0 <= i < |r| && 0 <= j < |r| && r[i].selected && r[j].selected ==> i == j)
  {
    var r := CreatePageSizeControl(blockSize, maxItems, pageSize);
    if exists i :: 0 <= i < |r| && r[i].selected {
      var i :| 0 <= i < |r| && r[i].selected;
      SelectedIsMultiple(blockSize, maxItems, pageSize, i);
    }
    if pageSize % blockSize == 0 && 1 <= pageSize / blockSize <= maxItems {
      MultipleIsSelected(blockSize, maxItems, pageSize);
    }
    forall i, j | 0 <= i < |r| && 0 <= j < |r| && r[i].selected && r[j].selected ensures i == j {
      if i < j {
        MulStrict(i + 1, j + 1, blockSize);
      } else if j < i {
        MulStrict(j + 1, i + 1, blockSize);
      }
    }
  }

  lemma SelectedIsMultiple(blockSize: int, maxItems: int, pageSize: int, i: int)
    requires blockSize >= 1
    requires 0 <= i < |CreatePageSizeControl(blockSize, maxItems, pageSize)|
    requires CreatePageSizeControl(blockSize, maxItems, pageSize)[i].selected
    ensures pageSize % blockSize == 0 && 1 <= pageSize / blockSize <= maxItems
  {
    assert pageSize == (i + 1) * blockSize;
    DivExact(i + 1, blockSize);
  }

  lemma MultipleIsSelected(blockSize: int, maxItems: int, pageSize: int)
    requires blockSize >= 1
    requires pageSize % blockSize == 0 && 1 <= pageSize / blockSize <= maxItems
    ensures var r := CreatePageSizeControl(blockSize, maxItems, pageSize);
      exists i :: 0 <= i < |r| && r[i].selected
  {
    var r := CreatePageSizeControl(blockSize, maxItems, pageSize);
    var k := pageSize / blockSize;
    assert pageSize == blockSize * k + pageSize % blockSize;
    assert r[k - 1].value == k * blockSize == pageSize;
    assert r[k - 1].selected;
  }
}

=== FILE: query_string.dfy ===
/**
 * The link target of every paging button: the current query string with its
 * page-number and page-size parameters set to the button's values and every
 * other parameter left where it was (`PagingTagHelper.CreateUrlTemplate`).
 */
module QueryString {
  import opened Text

  const QueryMark := '?'
  const ParamSeparator := '&'

  /** What a token must start with to count as parameter `key`. */
  function KeyPrefix(key: string): string {
    key + "="
  }

  /** The token `key=value` written for a paging parameter. */
  function Param(key: string, value: int): (r: string)
    ensures StartsWith(r, KeyPrefix(key))
  {
    key + "=" + IntToString(value)
  }

  /** The query string, without leading `?`, cut at every `&`. */
  function Tokenize(urlPath: string): (ts: seq<string>)
    ensures |ts| >= 1
    ensures forall i :: 0 <= i < |ts| ==> ParamSeparator !in ts[i]
  {
    Split(TrimStart(urlPath, QueryMark), ParamSeparator)
  }

  /**
   * One token of the loop: the page parameter is checked first, then the size
   * parameter; anything else is kept.
   */
  function RewriteToken(t: string, pageKey: string, p: string, sizeKey: string, s: string): string {
    if StartsWith(t, KeyPrefix(pageKey)) then p
    else if StartsWith(t, KeyPrefix(sizeKey)) then s
    else t
  }

  /** The in-place pass over all tokens. */
  function RewriteTokens(ts: seq<string>, pageKey: string, p: string, sizeKey: string, s: string): (r: seq<string>)
    ensures |r| == |ts|
    ensures forall i :: 0 <= i < |ts| ==> r[i] == RewriteToken(ts[i], pageKey, p, sizeKey, s)
    decreases |ts|
  {
    if |ts| == 0 then []
    else [RewriteToken(ts[0], pageKey, p, sizeKey, s)] + RewriteTokens(ts[1..], pageKey, p, sizeKey, s)
  }

  /** The token list `CreateUrlTemplate` joins: rewritten tokens, then `p` and `s` if still missing. */
  function UrlTokens(pageNo: int, pageSize: int, urlPath: string, pageKey: string, sizeKey: string): (r: seq<string>)
    ensures var toks := Tokenize(urlPath);
      |toks| <= |r| <= |toks| + 2
    ensures Param(pageKey, pageNo) in r && Param(sizeKey, pageSize) in r
    // every original token keeps its position; paging tokens are overwritten there
    ensures var toks := Tokenize(urlPath);
      forall i :: 0 <= i < |toks| ==>
        r[i] == RewriteToken(toks[i], pageKey, Param(pageKey, pageNo), sizeKey, Param(sizeKey, pageSize))
    ensures var toks := Tokenize(urlPath);
      forall i :: 0 <= i < |toks| && !StartsWith(toks[i], KeyPrefix(pageKey)) && !StartsWith(toks[i], KeyPrefix(sizeKey)) ==>
        r[i] == toks[i]
    // anything past the original tokens is an appended paging parameter
    ensures var toks := Tokenize(urlPath);
      forall i :: |toks| <= i < |r| ==> r[i] == Param(pageKey, pageNo) || r[i] == Param(sizeKey, pageSize)
    // every token is a paging parameter or a token that mentions neither key
    ensures forall i :: 0 <= i < |r| ==> Settled(r[i], pageKey, Param(pageKey, pageNo), sizeKey, Param(sizeKey, pageSize))
  {
    var p := Param(pageKey, pageNo);
    var s := Param(sizeKey, pageSize);
    var rewritten := RewriteTokens(Tokenize(urlPath), pageKey, p, sizeKey, s);
    assert forall i :: 0 <= i < |rewritten| ==> Settled(rewritten[i], pageKey, p, sizeKey, s);
    AppendMissing(AppendMissing(rewritten, p), s)
  }

  /** `if (!list.Any(x => x == item)) list.Add(item)`. */
  function AppendMissing(ts: seq<string>, x: string): (r: seq<string>)
    ensures x in r
    ensures |ts| <= |r| <= |ts| + 1
    ensures |r| == |ts| <==> x in ts
    ensures forall i :: 0 <= i < |ts| ==> r[i] == ts[i]
    ensures forall i :: |ts| <= i < |r| ==> r[i] == x
  {
    if x in ts then ts else ts + [x]
  }

  /** A token after the rewrite: a paging parameter, or one that mentions neither key. */
  predicate Settled(t: string, pageKey: string, p: string, sizeKey: string, s: string) {
    t == p || t == s || (!StartsWith(t, KeyPrefix(pageKey)) && !StartsWith(t, KeyPrefix(sizeKey)))
  }

  /** `CreateUrlTemplate(pageNo, pageSize, urlPath)` with the configured parameter names. */
  function CreateUrlTemplate(pageNo: int, pageSize: int, urlPath: string, pageKey: string, sizeKey: string): (r: string)
    ensures |r| >= 1 && r[0] == QueryMark
  {
    [QueryMark] + Join(UrlTokens(pageNo, pageSize, urlPath, pageKey, sizeKey), ParamSeparator)
  }

  /** Parameter names for which the rewrite is well behaved: different, and free of `=` and `&`. */
  predicate DistinctKeys(pageKey: string, sizeKey: string) {
    && pageKey != sizeKey
    && '=' !in pageKey && '=' !in sizeKey
    && ParamSeparator !in pageKey && ParamSeparator !in sizeKey
  }

  /** Some token of `ts` is parameter `key`. */
  predicate HasKey(ts: seq<string>, key: string) {
    exists i :: 0 <= i < |ts| && StartsWith(ts[i], KeyPrefix(key))
  }

  /** In a token that starts with `key=`, and `key` has no `=`, the first `=` sits right after the key. */
  lemma FirstEqualsAfterKey(t: string, key: string)
    requires '=' !in key
    requires StartsWith(t, KeyPrefix(key))
    ensures |key| < |t| && t[|key|] == '=' && t[..|key|] == key
    ensures forall i :: 0 <= i < |key| ==> t[i] != '='
  {
    assert KeyPrefix(key)[|key|] == '=';
    assert t[..|key| + 1] == KeyPrefix(key);
    assert t[..|key|] == t[..|key| + 1][..|key|];
    forall i | 0 <= i < |key| ensures t[i] != '=' {
      assert t[i] == key[i];
    }
  }

  /** With `=`-free names, one token cannot be both parameters unless the names agree. */
  lemma PrefixesExclusive(t: string, pageKey: string, sizeKey: string)
    requires '=' !in pageKey && '=' !in sizeKey
    requires StartsWith(t, KeyPrefix(pageKey)) && StartsWith(t, KeyPrefix(sizeKey))
    ensures pageKey == sizeKey
  {
    FirstEqualsAfterKey(t, pageKey);
    FirstEqualsAfterKey(t, sizeKey);
    assert |pageKey| == |sizeKey|;
  }

  /** With distinct names, each paging token can only come from a token carrying its own key. */
  lemma ParamsDistinct(pageNo: int, pageSize: int, pageKey: string, sizeKey: string)
    requires DistinctKeys(pageKey, sizeKey)
    ensures !StartsWith(Param(sizeKey, pageSize), KeyPrefix(pageKey))
    ensures !StartsWith(Param(pageKey, pageNo), KeyPrefix(sizeKey))
    ensures Param(pageKey, pageNo) != Param(sizeKey, pageSize)
  {
    var p := Param(pageKey, pageNo);
    var s := Param(sizeKey, pageSize);
    if StartsWith(s, KeyPrefix(pageKey)) {
      PrefixesExclusive(s, pageKey, sizeKey);
    }
    if StartsWith(p, KeyPrefix(sizeKey)) {
      PrefixesExclusive(p, pageKey, sizeKey);
    }
  }

  /** After the in-place pass, the page token is present exactly when some token carried the page key. */
  lemma RewrittenHasPage(toks: seq<string>, pageNo: int, pageSize: int, pageKey: string, sizeKey: string)
    requires DistinctKeys(pageKey, sizeKey)
    ensures var p := Param(pageKey, pageNo);
      p in RewriteTokens(toks, pageKey, p, sizeKey, Param(sizeKey, pageSize)) <==> HasKey(toks, pageKey)
  {
    var p := Param(pageKey, pageNo);
    var s := Param(sizeKey, pageSize);
    var rewritten := RewriteTokens(toks, pageKey, p, sizeKey, s);
    ParamsDistinct(pageNo, pageSize, pageKey, sizeKey);
    if HasKey(toks, pageKey) {
      var i :| 0 <= i < |toks| && StartsWith(toks[i], KeyPrefix(pageKey));
      assert rewritten[i] == p;
    } else {
      forall i | 0 <= i < |rewritten| ensures rewritten[i] != p {
        assert !StartsWith(toks[i], KeyPrefix(pageKey));
      }
    }
  }

  /** After the in-place pass, the size token is present exactly when some token carried the size key. */
  lemma RewrittenHasSize(toks: seq<string>, pageNo: int, pageSize: int, pageKey: string, sizeKey: string)
    requires DistinctKeys(pageKey, sizeKey)
    ensures var s := Param(sizeKey, pageSize);
      s in RewriteTokens(toks, pageKey, Param(pageKey, pageNo), sizeKey, s) <==> HasKey(toks, sizeKey)
  {
    var p := Param(pageKey, pageNo);
    var s := Param(sizeKey, pageSize);
    var rewritten := RewriteTokens(toks, pageKey, p, sizeKey, s);
    ParamsDistinct(pageNo, pageSize, pageKey, sizeKey);
    if HasKey(toks, sizeKey) {
      var i :| 0 <= i < |toks| && StartsWith(toks[i], KeyPrefix(sizeKey));
      if StartsWith(toks[i], KeyPrefix(pageKey)) {
        PrefixesExclusive(toks[i], pageKey, sizeKey);
      }
      assert rewritten[i] == s;
    } else {
      forall i | 0 <= i < |rewritten| ensures rewritten[i] != s {
        assert !StartsWith(toks[i], KeyPrefix(sizeKey));
      }
    }
  }

  /**
   * With distinct names, `p` is appended exactly when no token carried the page
   * parameter, `s` exactly when none carried the size parameter, and `p` before `s`.
   */
  lemma UrlTokensAppendMissing(pageNo: int, pageSize: int, urlPath: string, pageKey: string, sizeKey: string)
    requires DistinctKeys(pageKey, sizeKey)
    ensures var toks := Tokenize(urlPath);
      var r := UrlTokens(pageNo, pageSize, urlPath, pageKey, sizeKey);
      |r| == |toks| + (if HasKey(toks, pageKey) then 0 else 1) + (if HasKey(toks, sizeKey) then 0 else 1)
    ensures var toks := Tokenize(urlPath);
      var r := UrlTokens(pageNo, pageSize, urlPath, pageKey, sizeKey);
      !HasKey(toks, pageKey) ==> r[|toks|] == Param(pageKey, pageNo)
  {
    var toks := Tokenize(urlPath);
    var p := Param(pageKey, pageNo);
    var s := Param(sizeKey, pageSize);
    var rewritten := RewriteTokens(toks, pageKey, p, sizeKey, s);
    RewrittenHasPage(toks, pageNo, pageSize, pageKey, sizeKey);
    RewrittenHasSize(toks, pageNo, pageSize, pageKey, sizeKey);
    ParamsDistinct(pageNo, pageSize, pageKey, sizeKey);
    var withPage := if p in rewritten then rewritten else rewritten + [p];
    assert s in withPage <==> s in rewritten;
    var r := if s in withPage then withPage else withPage + [s];
    assert r == UrlTokens(pageNo, pageSize, urlPath, pageKey, sizeKey);
  }

  /** The first token never starts with `?`: leading marks are trimmed and paging tokens start with their key. */
  lemma FirstTokenUnmarked(pageNo: int, pageSize: int, urlPath: string, pageKey: string, sizeKey: string)
    ensures var t := UrlTokens(pageNo, pageSize, urlPath, pageKey, sizeKey);
      |t[0]| == 0 || t[0][0] != QueryMark
  {
    var trimmed := TrimStart(urlPath, QueryMark);
    var toks := Tokenize(urlPath);
    var t := UrlTokens(pageNo, pageSize, urlPath, pageKey, sizeKey);
    assert toks[0] <= trimmed;
    if |toks[0]| > 0 {
      assert toks[0][0] == trimmed[0] != QueryMark;
    }
    var p := Param(pageKey, pageNo);
    var s := Param(sizeKey, pageSize);
    if StartsWith(toks[0], KeyPrefix(pageKey)) {
      assert t[0] == p;
      assert p[0] == KeyPrefix(pageKey)[0] == toks[0][0];
    } else if StartsWith(toks[0], KeyPrefix(sizeKey)) {
      assert t[0] == s;
      assert s[0] == KeyPrefix(sizeKey)[0] == toks[0][0];
    } else {
      assert t[0] == toks[0];
    }
  }

  lemma ParamSeparatorFree(key: string, value: int)
    requires ParamSeparator !in key
    ensures ParamSeparator !in Param(key, value)
  {
    var digits := IntToString(value);
    assert Param(key, value) == key + "=" + digits;
    forall i | 0 <= i < |digits| ensures digits[i] != ParamSeparator {
      assert IsDigit(digits[i]) || digits[i] == '-';
    }
  }

  /** No token of the rebuilt list contains `&`, so joining them is reversible. */
  lemma UrlTokensSeparatorFree(pageNo: int, pageSize: int, urlPath: string, pageKey: string, sizeKey: string)
    requires ParamSeparator !in pageKey && ParamSeparator !in sizeKey
    ensures var t := UrlTokens(pageNo, pageSize, urlPath, pageKey, sizeKey);
      forall i :: 0 <= i < |t| ==> ParamSeparator !in t[i]
  {
    var t := UrlTokens(pageNo, pageSize, urlPath, pageKey, sizeKey);
    var p := Param(pageKey, pageNo);
    var s := Param(sizeKey, pageSize);
    var toks := Tokenize(urlPath);
    ParamSeparatorFree(pageKey, pageNo);
    ParamSeparatorFree(sizeKey, pageSize);
    forall i | 0 <= i < |t| ensures ParamSeparator !in t[i] {
      if t[i] != p && t[i] != s {
        assert i < |toks|;
        assert t[i] == RewriteToken(toks[i], pageKey, p, sizeKey, s);
      }
    }
  }

  /** The joined token list never starts with `?`, so trimming the link's own `?` leaves it intact. */
  lemma JoinedUnmarked(pageNo: int, pageSize: int, urlPath: string, pageKey: string, sizeKey: string)
    ensures var joined := Join(UrlTokens(pageNo, pageSize, urlPath, pageKey, sizeKey), ParamSeparator);
      |joined| == 0 || joined[0] != QueryMark
  {
    var t := UrlTokens(pageNo, pageSize, urlPath, pageKey, sizeKey);
    var joined := Join(t, ParamSeparator);
    FirstTokenUnmarked(pageNo, pageSize, urlPath, pageKey, sizeKey);
    if |t[0]| > 0 {
      assert t[0] <= joined;
      assert joined[0] == t[0][0];
    } else if |t| >= 2 {
      assert t[0] + [ParamSeparator] <= joined;
      assert joined[0] == ParamSeparator;
    } else {
      assert joined == t[0];
    }
  }

  /** The generated link reads back, token for token, as the list it was built from. */
  lemma UrlTemplateReadsBack(pageNo: int, pageSize: int, urlPath: string, pageKey: string, sizeKey: string)
    requires ParamSeparator !in pageKey && ParamSeparator !in sizeKey
    ensures Tokenize(CreateUrlTemplate(pageNo, pageSize, urlPath, pageKey, sizeKey))
         == UrlTokens(pageNo, pageSize, urlPath, pageKey, sizeKey)
  {
    var t := UrlTokens(pageNo, pageSize, urlPath, pageKey, sizeKey);
    var joined := Join(t, ParamSeparator);
    var out := CreateUrlTemplate(pageNo, pageSize, urlPath, pageKey, sizeKey);
    assert out == [QueryMark] + joined;
    assert out[1..] == joined;
    JoinedUnmarked(pageNo, pageSize, urlPath, pageKey, sizeKey);
    assert TrimStart(out, QueryMark) == TrimStart(joined, QueryMark) == joined;
    UrlTokensSeparatorFree(pageNo, pageSize, urlPath, pageKey, sizeKey);
    SplitJoin(t, ParamSeparator);
  }

  /**
   * Applying the rewrite to its own output with the same page and size changes
   * nothing, provided the parameter names are distinct and free of `=` and `&`.
   */
  lemma UrlTemplateIdempotent(pageNo: int, pageSize: int, urlPath: string, pageKey: string, sizeKey: string)
    requires DistinctKeys(pageKey, sizeKey)
    ensures var once := CreateUrlTemplate(pageNo, pageSize, urlPath, pageKey, sizeKey);
      CreateUrlTemplate(pageNo, pageSize, once, pageKey, sizeKey) == once
  {
    var p := Param(pageKey, pageNo);
    var s := Param(sizeKey, pageSize);
    var once := CreateUrlTemplate(pageNo, pageSize, urlPath, pageKey, sizeKey);
    var t := UrlTokens(pageNo, pageSize, urlPath, pageKey, sizeKey);
    UrlTemplateReadsBack(pageNo, pageSize, urlPath, pageKey, sizeKey);
    assert Tokenize(once) == t;
    assert !StartsWith(s, KeyPrefix(pageKey)) by {
      if StartsWith(s, KeyPrefix(pageKey)) {
        PrefixesExclusive(s, pageKey, sizeKey);
      }
    }
    var again := RewriteTokens(t, pageKey, p, sizeKey, s);
    forall i | 0 <= i < |t| ensures again[i] == t[i] {
    }
    assert again == t;
    assert UrlTokens(pageNo, pageSize, once, pageKey, sizeKey) == t;
  }

  // ---------------------------------------------------------------------
  // Worked examples
  //
  // `UrlTemplateExampleInPlace`, `UrlTemplateExampleEmpty`, `DuplicatesKept`
  // and `SharedKeyNotIdempotent` state concrete rewrites. The small lemmas
  // around them only evaluate literal pieces — parameters, single-token
  // rewrites, joins and splits of short strings — so that each example just
  // puts those pieces together.

  lemma JoinThree(a: string, b: string, c: string)
    ensures Join([a, b, c], ParamSeparator) == a + "&" + b + "&" + c
  {
    var t := [a, b, c];
    assert t[1..] == [b, c] && [b, c][1..] == [c];
    assert Join([c], ParamSeparator) == c;
    assert Join([b, c], ParamSeparator) == b + "&" + c;
    assert Join(t, ParamSeparator) == a + "&" + (b + "&" + c);
  }

  lemma JoinFour(a: string, b: string, c: string, d: string)
    ensures Join([a, b, c, d], ParamSeparator) == a + "&" + b + "&" + c + "&" + d
  {
    var t := [a, b, c, d];
    assert t[1..] == [b, c, d];
    JoinThree(b, c, d);
    assert Join(t, ParamSeparator) == a + "&" + (b + "&" + c + "&" + d);
  }

  /** A query without leading `?` that is the join of `&`-free tokens tokenizes back to them. */
  lemma TokenizeJoined(toks: seq<string>, q: string)
    requires |toks| >= 1 && (forall i :: 0 <= i < |toks| ==> ParamSeparator !in toks[i])
    requires q == Join(toks, ParamSeparator) && (|q| == 0 || q[0] != QueryMark)
    ensures Tokenize(q) == toks
  {
    SplitJoin(toks, ParamSeparator);
  }

  lemma InPlaceParams()
    ensures Param("p", 3) == "p=3" && Param("s", 25) == "s=25"
    ensures RewriteToken("a=1", "p", "p=3", "s", "s=25") == "a=1"
    ensures RewriteToken("p=1", "p", "p=3", "s", "s=25") == "p=3"
    ensures RewriteToken("b=2", "p", "p=3", "s", "s=25") == "b=2"
  {
    assert KeyPrefix("p") == "p=" && KeyPrefix("s") == "s=";
    assert "a=1"[0] == 'a' && "b=2"[0] == 'b' && "p=1"[0] == 'p';
    assert !StartsWith("a=1", "p=") && !StartsWith("a=1", "s=");
    assert !StartsWith("b=2", "p=") && !StartsWith("b=2", "s=");
    assert "p=1"[..2] == "p=";
    assert IntToString(3) == "3";
    assert NatToString(25) == NatToString(2) + ['5'];
    assert IntToString(25) == "25";
  }

  lemma InPlaceQuery(q: string)
    requires q == "a=1&p=1&b=2"
    ensures Tokenize(q) == ["a=1", "p=1", "b=2"]
  {
    JoinThree("a=1", "p=1", "b=2");
    assert "a=1" + "&" + "p=1" + "&" + "b=2" == q;
    TokenizeJoined(["a=1", "p=1", "b=2"], q);
  }

  lemma InPlaceRewrite()
    ensures RewriteTokens(["a=1", "p=1", "b=2"], "p", "p=3", "s", "s=25") == ["a=1", "p=3", "b=2"]
  {
    InPlaceParams();
    var toks := ["a=1", "p=1", "b=2"];
    var rewritten := RewriteTokens(toks, "p", "p=3", "s", "s=25");
    assert rewritten[0] == RewriteToken(toks[0], "p", "p=3", "s", "s=25");
    assert rewritten[1] == RewriteToken(toks[1], "p", "p=3", "s", "s=25");
    assert rewritten[2] == RewriteToken(toks[2], "p", "p=3", "s", "s=25");
  }

  /** `UrlTokens` spelled out for a query whose tokens are known. */
  lemma UrlTokensOf(pageNo: int, pageSize: int, urlPath: string, pageKey: string, sizeKey: string,
                    toks: seq<string>, p: string, s: string)
    requires Tokenize(urlPath) == toks && p == Param(pageKey, pageNo) && s == Param(sizeKey, pageSize)
    ensures UrlTokens(pageNo, pageSize, urlPath, pageKey, sizeKey)
         == AppendMissing(AppendMissing(RewriteTokens(toks, pageKey, p, sizeKey, s), p), s)
  {
  }

  lemma ExampleInPlaceTokens(q: string)
    requires q == "a=1&p=1&b=2"
    ensures UrlTokens(3, 25, q, "p", "s") == ["a=1", "p=3", "b=2", "s=25"]
  {
    InPlaceQuery(q);
    InPlaceParams();
    InPlaceRewrite();
    UrlTokensOf(3, 25, q, "p", "s", ["a=1", "p=1", "b=2"], "p=3", "s=25");
    InPlaceAppend();
  }

  lemma InPlaceAppend()
    ensures AppendMissing(AppendMissing(["a=1", "p=3", "b=2"], "p=3"), "s=25") == ["a=1", "p=3", "b=2", "s=25"]
  {
    var rewritten := ["a=1", "p=3", "b=2"];
    assert AppendMissing(rewritten, "p=3") == rewritten by {
      assert rewritten[1] == "p=3";
    }
    assert "s=25" !in rewritten;
  }

  /** The page parameter is replaced in place and the missing size parameter is appended. */
  lemma UrlTemplateExampleInPlace(q: string)
    requires q == "a=1&p=1&b=2"
    ensures CreateUrlTemplate(3, 25, q, "p", "s") == "?a=1&p=3&b=2&s=25"
  {
    var t := ["a=1", "p=3", "b=2", "s=25"];
    assert Join(t, ParamSeparator) == "a=1&p=3&b=2&s=25" by {
      JoinFour("a=1", "p=3", "b=2", "s=25");
    }
    assert UrlTokens(3, 25, q, "p", "s") == t by {
      ExampleInPlaceTokens(q);
    }
    assert CreateUrlTemplate(3, 25, q, "p", "s") == [QueryMark] + Join(t, ParamSeparator);
    MarkedLiteral();
  }

  lemma MarkedLiteral()
    ensures [QueryMark] + "a=1&p=3&b=2&s=25" == "?a=1&p=3&b=2&s=25"
  {
  }

  /** The empty query keeps its empty token, so the link starts with `?&`. */
  lemma UrlTemplateExampleEmpty()
    ensures CreateUrlTemplate(1, 10, "", "p", "s") == "?&p=1&s=10"
  {
    assert IntToString(1) == "1";
    assert NatToString(10) == NatToString(1) + ['0'];
    assert IntToString(10) == "10";
    assert Param("p", 1) == "p=1";
    assert Param("s", 10) == "s=10";
    assert Tokenize("") == [""];
    assert RewriteTokens([""], "p", "p=1", "s", "s=10") == [""];
    assert "p=1" !in [""];
    assert "s=10" !in ["", "p=1"];
    assert UrlTokens(1, 10, "", "p", "s") == ["", "p=1", "s=10"];
  }

  lemma DuplicatesTokens(q: string)
    requires q == "p=1&p=2"
    ensures UrlTokens(3, 10, q, "p", "s") == ["p=3", "p=3", "s=10"]
  {
    var toks := ["p=1", "p=2"];
    assert Join(toks, ParamSeparator) == q by {
      assert toks[1..] == ["p=2"];
    }
    TokenizeJoined(toks, q);
    RewriteExamples();
    var rewritten := RewriteTokens(toks, "p", "p=3", "s", "s=10");
    assert rewritten[0] == "p=3" && rewritten[1] == "p=3";
    assert rewritten == ["p=3", "p=3"];
    assert "s=10" !in rewritten;
  }

  /** The rendered parameters and single-token rewrites the duplicate example relies on. */
  lemma RewriteExamples()
    ensures Param("p", 3) == "p=3" && Param("s", 10) == "s=10"
    ensures RewriteToken("p=1", "p", "p=3", "s", "s=10") == "p=3"
    ensures RewriteToken("p=2", "p", "p=3", "s", "s=10") == "p=3"
  {
    assert IntToString(3) == "3";
    assert NatToString(10) == NatToString(1) + ['0'];
    assert IntToString(10) == "10";
  }

  /** Repeated page parameters are each rewritten, not merged into one. */
  lemma DuplicatesKept(q: string)
    requires q == "p=1&p=2"
    ensures CreateUrlTemplate(3, 10, q, "p", "s") == "?p=3&p=3&s=10"
  {
    var t := ["p=3", "p=3", "s=10"];
    assert Join(t, ParamSeparator) == "p=3&p=3&s=10" by {
      JoinThree("p=3", "p=3", "s=10");
    }
    assert UrlTokens(3, 10, q, "p", "s") == t by {
      DuplicatesTokens(q);
    }
    assert CreateUrlTemplate(3, 10, q, "p", "s") == [QueryMark] + Join(t, ParamSeparator);
    DuplicatesLiteral();
  }

  lemma DuplicatesLiteral()
    ensures [QueryMark] + "p=3&p=3&s=10" == "?p=3&p=3&s=10"
  {
  }

  lemma SharedKeyParams()
    ensures Param("k", 3) == "k=3" && Param("k", 25) == "k=25"
  {
    assert IntToString(3) == "3";
    assert NatToString(25) == NatToString(2) + ['5'];
    assert IntToString(25) == "25";
  }

  /** First pass with a shared key: the empty token, then both parameters appended. */
  lemma SharedKeyOnce()
    ensures UrlTokens(3, 25, "", "k", "k") == ["", "k=3", "k=25"]
  {
    SharedKeyParams();
    assert Tokenize("") == [""];
    var rewritten := RewriteTokens([""], "k", "k=3", "k", "k=25");
    assert rewritten == [""];
    assert AppendMissing(rewritten, "k=3") == ["", "k=3"];
    assert AppendMissing(["", "k=3"], "k=25") == ["", "k=3", "k=25"];
  }

  /** Second pass: `k=25` now reads as a page parameter, so it is overwritten and appended again. */
  lemma SharedKeyTwice(once: string)
    requires Tokenize(once) == ["", "k=3", "k=25"]
    ensures UrlTokens(3, 25, once, "k", "k") == ["", "k=3", "k=3", "k=25"]
  {
    SharedKeyParams();
    var toks := ["", "k=3", "k=25"];
    var again := RewriteTokens(toks, "k", "k=3", "k", "k=25");
    assert again[0] == RewriteToken("", "k", "k=3", "k", "k=25") == "";
    assert again[1] == RewriteToken("k=3", "k", "k=3", "k", "k=25") == "k=3";
    assert again[2] == RewriteToken("k=25", "k", "k=3", "k", "k=25") == "k=3";
    assert again == ["", "k=3", "k=3"];
    assert AppendMissing(again, "k=3") == again by {
      assert again[1] == "k=3";
    }
    assert "k=25" !in again;
  }

  /** When both parameters share one name the rewrite is not idempotent, so `DistinctKeys` is needed. */
  lemma SharedKeyNotIdempotent()
    ensures var once := CreateUrlTemplate(3, 25, "", "k", "k");
      CreateUrlTemplate(3, 25, once, "k", "k") != once
  {
    SharedKeyOnce();
    var once := CreateUrlTemplate(3, 25, "", "k", "k");
    UrlTemplateReadsBack(3, 25, "", "k", "k");
    SharedKeyTwice(once);
    var twice := CreateUrlTemplate(3, 25, once, "k", "k");
    JoinThree("", "k=3", "k=25");
    JoinFour("", "k=3", "k=3", "k=25");
    assert |once| == 10;
    assert |twice| == 14;
  }
}

=== FILE: text.dfy ===
/**
 * String primitives the paging control relies on, with .NET semantics made
 * explicit: `TrimStart(char)`, `Split(char)` (empty pieces kept),
 * `string.Join(char, …)`, an ordinal `StartsWith`, and the decimal rendering of
 * an integer used by string interpolation.
 */
module Text {

  predicate IsDigit(c: char) {
    '0' <= c <= '9'
  }

  /** Ordinal prefix test (the model of `s.StartsWith(prefix)` on ASCII keys). */
  predicate StartsWith(s: string, prefix: string) {
    prefix <= s
  }

  /** Removes every leading occurrence of `c`, like `s.TrimStart(c)`. */
  function TrimStart(s: string, c: char): (r: string)
    ensures |r| <= |s| && r == s[|s| - |r|..]
    ensures |r| > 0 ==> r[0] != c
    ensures forall i :: 0 <= i < |s| - |r| ==> s[i] == c
    decreases |s|
  {
    if |s| > 0 && s[0] == c then TrimStart(s[1..], c) else s
  }

  /**
   * `s.Split(sep)`: the pieces between separators, in order. Empty pieces are
   * kept, so the result is never empty and has one piece more than `s` has
   * separators.
   */
  function Split(s: string, sep: char): (r: seq<string>)
    ensures |r| >= 1
    ensures forall i :: 0 <= i < |r| ==> sep !in r[i]
    ensures r[0] <= s
    decreases |s|
  {
    if |s| == 0 then [""]
    else if s[0] == sep then [""] + Split(s[1..], sep)
    else
      var rest := Split(s[1..], sep);
      [[s[0]] + rest[0]] + rest[1..]
  }

  /** `string.Join(sep, ts)`. */
  function Join(ts: seq<string>, sep: char): (r: string)
    ensures |ts| >= 1 ==> ts[0] <= r
    ensures |ts| >= 2 ==> ts[0] + [sep] <= r
    decreases |ts|
  {
    if |ts| == 0 then ""
    else if |ts| == 1 then ts[0]
    else ts[0] + [sep] + Join(ts[1..], sep)
  }

  /** Joining the pieces of a split gives back the original string. */
  lemma {:induction false} JoinSplit(s: string, sep: char)
    ensures Join(Split(s, sep), sep) == s
    decreases |s|
  {
    if |s| == 0 {
    } else if s[0] == sep {
      var rest := Split(s[1..], sep);
      JoinSplit(s[1..], sep);
      assert Split(s, sep) == [""] + rest;
      assert ([""] + rest)[1..] == rest;
      assert Join(Split(s, sep), sep) == "" + [sep] + Join(rest, sep);
      assert [sep] + s[1..] == s;
    } else {
      var rest := Split(s[1..], sep);
      JoinSplit(s[1..], sep);
      var head := [s[0]] + rest[0];
      assert Split(s, sep) == [head] + rest[1..];
      if |rest| == 1 {
        assert Join(Split(s, sep), sep) == head;
        assert [s[0]] + s[1..] == s;
      } else {
        assert ([head] + rest[1..])[1..] == rest[1..];
        assert Join(Split(s, sep), sep) == head + [sep] + Join(rest[1..], sep);
        assert Join(rest, sep) == rest[0] + [sep] + Join(rest[1..], sep);
        assert head + [sep] + Join(rest[1..], sep) == [s[0]] + Join(rest, sep);
        assert [s[0]] + s[1..] == s;
      }
    }
  }

  /** A string without separators splits into itself alone. */
  lemma {:induction false} SplitNoSeparator(a: string, sep: char)
    requires sep !in a
    ensures Split(a, sep) == [a]
    decreases |a|
  {
    if |a| > 0 {
      SplitNoSeparator(a[1..], sep);
      assert [a[0]] + a[1..] == a;
    }
  }

  /** Splitting `a + sep + b`, where `a` has no separator, peels off `a`. */
  lemma {:induction false} SplitCons(a: string, b: string, sep: char)
    requires sep !in a
    ensures Split(a + [sep] + b, sep) == [a] + Split(b, sep)
    decreases |a|
  {
    var s := a + [sep] + b;
    if |a| == 0 {
      assert s[0] == sep && s[1..] == b;
    } else {
      assert s[0] == a[0];
      assert s[1..] == a[1..] + [sep] + b;
      SplitCons(a[1..], b, sep);
      var rest := Split(s[1..], sep);
      assert rest == [a[1..]] + Split(b, sep);
      assert [s[0]] + rest[0] == a;
      assert rest[1..] == Split(b, sep);
    }
  }

  /** Splitting a join of separator-free pieces gives back the pieces. */
  lemma {:induction false} SplitJoin(ts: seq<string>, sep: char)
    requires |ts| >= 1
    requires forall i :: 0 <= i < |ts| ==> sep !in ts[i]
    ensures Split(Join(ts, sep), sep) == ts
    decreases |ts|
  {
    if |ts| == 1 {
      SplitNoSeparator(ts[0], sep);
    } else {
      SplitJoin(ts[1..], sep);
      SplitCons(ts[0], Join(ts[1..], sep), sep);
      assert [ts[0]] + ts[1..] == ts;
    }
  }

  function DigitChar(d: int): (c: char)
    requires 0 <= d <= 9
    ensures IsDigit(c) && c as int - '0' as int == d
  {
    (d + '0' as int) as char
  }

  /** Decimal digits of `n`, most significant first, without leading zeros. */
  function NatToString(n: nat): (r: string)
    ensures |r| >= 1
    ensures forall i :: 0 <= i < |r| ==> IsDigit(r[i])
    ensures r[0] == '0' ==> n == 0
    decreases n
  {
    if n < 10 then [DigitChar(n)] else NatToString(n / 10) + [DigitChar(n % 10)]
  }

  /** The value of a string of decimal digits (the reading direction of `NatToString`). */
  function DigitsValue(s: string): nat
    requires forall i :: 0 <= i < |s| ==> IsDigit(s[i])
    decreases |s|
  {
    if |s| == 0 then 0
    else
      assert IsDigit(s[|s| - 1]);
      DigitsValue(s[..|s| - 1]) * 10 + (s[|s| - 1] as int - '0' as int)
  }

  lemma {:induction false} NatToStringRoundTrip(n: nat)
    ensures DigitsValue(NatToString(n)) == n
    decreases n
  {
    if n >= 10 {
      NatToStringRoundTrip(n / 10);
      var r := NatToString(n);
      assert r[..|r| - 1] == NatToString(n / 10);
    }
  }

  /** `$"{i}"` for an integer: an optional minus sign followed by decimal digits. */
  function IntToString(i: int): (r: string)
    ensures |r| >= 1
    ensures r[0] == '-' <==> i < 0
    ensures forall k :: 0 <= k < |r| ==> IsDigit(r[k]) || (k == 0 && r[k] == '-')
  {
    if i < 0 then "-" + NatToString(-i) else NatToString(i)
  }

  /** Reads back what `IntToString` writes. */
  function IntValue(s: string): int
    requires |s| >= 1
    requires forall k :: 0 <= k < |s| ==> IsDigit(s[k]) || (k == 0 && s[k] == '-')
  {
    if s[0] == '-' then 0 - DigitsValue(s[1..]) as int else DigitsValue(s)
  }

  lemma IntToStringRoundTrip(i: int)
    ensures IntValue(IntToString(i)) == i
  {
    if i < 0 {
      NatToStringRoundTrip(-i);
      assert IntToString(i)[1..] == NatToString(-i);
    } else {
      NatToStringRoundTrip(i);
    }
  }

  /** Different numbers render differently, so comparing rendered parameters compares numbers. */
  lemma IntToStringInjective(a: int, b: int)
    requires IntToString(a) == IntToString(b)
    ensures a == b
  {
    IntToStringRoundTrip(a);
    IntToStringRoundTrip(b);
  }
}

=== FILE: wrappers.dfy ===
/**
 * Values that may be missing: unset tag attributes, absent configuration
 * entries and links without an href all use `Option`.
 */
module Wrappers {

  datatype Option<+T> = None | Some(value: T) {

    /** The C# `??` operator: this value when present, otherwise `fallback`. */
    function Coalesce(fallback: T): (r: T)
      ensures Some? ==> r == value
      ensures None? ==> r == fallback
    {
      if Some? then value else fallback
    }
  }
}
